=== FILE: README.md ===
# Shepherd and paddock model

A Dafny model of the shepherd's side of a colony mod. A shepherd's hut
works a list of paddocks, which are animal pens registered with the colony.
The model covers:

- how paddocks are assigned to the hut and freed;
- how the list is reconciled with the world and torn down;
- the view the hut sends to the client and the client's reading of it;
- the shepherd's AI: preparing, feeding and slaughter;
- the two client messages that assign paddocks and switch the assignment mode;
- the material request that a deliveryman claims, and the deliveryman's AI;
- the build tool's rotation and list-selection arithmetic.

Modules:

- `Paddocks` holds positions, pool paddocks and list helpers. `Wire` holds buffers as typed value sequences. `Wrappers` holds `Option` and `Result`.
- `ShepherdBuilding` is the hut. The model assumes that the hut's list holds the colony pool's own paddock objects, as it does for a paddock added by `assignField` (BuildingShepherd.java:479-485). So the pool (a map from position to paddock) keeps every paddock attribute, and the list names paddocks by position. Where the Java code dereferences null, the model returns an `Outcome`. It pairs the state reached at that point with the fault.
- `ShepherdView` is the hut's serialisation and the client view.
- `AIStates` holds the AI states and the registration tables. `ShepherdAI` and `DeliverymanAI` are the two AIs. Each handler is a pure function of what it observes. The delay a handler sets is returned as a value.
- `PaddockMessages` holds the two network messages.
- `Requests` is the material request.
- `BuildTool` is the build tool's selection arithmetic.

Behaviour of the Java code worth knowing before reading the table:

- A preparation pass asks the colony for at most one free paddock (EntityAIWorkShepherd.java:153-156 and 200-213). A hut of level 2 therefore fills its second slot on a later pass.
- `Request.claimTask` refuses every real deliveryman on a new request.
- The client view's taken counter is never reset when the view is read again.
- `wantInventoryDumped` answers from a flag that starts false and is never set true (EntityAIWorkShepherd.java:72 and 267-275), so the Java code always answers false.

The second and third are logged under Findings.

The shepherd AI calls `getPaddocks`, `addPaddock`, `getCurrentPaddock`, `getPaddockToWorkOn` and `resetPaddocks` (EntityAIWorkShepherd.java:153, 163, 166, 170, 210). `BuildingShepherd.java` declares none of them. The model reads them as the hut's `getFarmerFields`, `addFarmerFields`, `getCurrentField`, `getFieldToWorkOn` and `resetFields`, which do the corresponding work.

Predicates without a contract of their own restate a Java test and appear in the contracts above them:
`ShepherdBuilding.HasNoFields` is `hasNoFields` (BuildingShepherd.java:126-129), `Requests.IsCompleted` is `isCompleted` (Request.java:39-42), and `ShepherdBuilding.Valid`, `ShepherdBuilding.Consistent` and `Paddocks.NeedsWork` are invariants and tests the hut relies on.

## Model

| member | source | states |
|---|---|---|
| ShepherdBuilding.AssignField | src/main/java/com/minecolonies/coremod/colony/buildings/BuildingShepherd.java:479-485 | An unknown position throws without change. Without a worker the paddock is marked taken and the owner step throws. Otherwise the paddock becomes taken by the worker and is appended, and nothing else in the pool changes. The pool-reference invariant and the hut/pool agreement are kept. |
| ShepherdBuilding.FreeField | src/main/java/com/minecolonies/coremod/colony/buildings/BuildingShepherd.java:450-472 | An unlisted position changes nothing. A listed one loses its first list entry. Its pool paddock becomes untaken with no owner and every other paddock is unchanged. The call throws exactly when that paddock is not in the pool or its tile entity is gone. |
| ShepherdBuilding.AssignThenFreeRestores | src/main/java/com/minecolonies/coremod/colony/buildings/BuildingShepherd.java:450-485 | Assigning a free, unlisted paddock and then freeing it restores hut and pool exactly. The free completes normally exactly when the tile entity stands. |
| ShepherdBuilding.FreePreservesConsistency | src/main/java/com/minecolonies/coremod/colony/buildings/BuildingShepherd.java:450-472 | On a duplicate-free list, freeing keeps every listed paddock taken by the hut's worker and keeps the list duplicate-free. |
| ShepherdBuilding.DoubleAssignThenFreeBreaksConsistency | src/main/java/com/minecolonies/coremod/colony/buildings/BuildingShepherd.java:479-485 | Assigning one paddock twice and freeing it once leaves it listed but untaken, because nothing guards against a second assignment. |
| ShepherdBuilding.GetFieldToWorkOn | src/main/java/com/minecolonies/coremod/colony/buildings/BuildingShepherd.java:169-182 | The list becomes the given permutation of itself. The result is absent exactly when no listed paddock needs work. Otherwise it is a listed paddock that needs work, and it becomes current. |
| ShepherdBuilding.FirstNeedingWork | src/main/java/com/minecolonies/coremod/colony/buildings/BuildingShepherd.java:172-181 | The first paddock in list order that needs work. It is absent exactly when none does. |
| ShepherdBuilding.ResetThenPickFinds | src/main/java/com/minecolonies/coremod/colony/buildings/BuildingShepherd.java:415-423 | After a reset, a non-empty list of pool paddocks always yields a paddock to work on, whatever the shuffle. |
| ShepherdBuilding.ResetFields | src/main/java/com/minecolonies/coremod/colony/buildings/BuildingShepherd.java:415-423 | Every listed pool paddock needs work again. Unlisted paddocks, the list and the current paddock are unchanged. |
| ShepherdBuilding.CreateJob | src/main/java/com/minecolonies/coremod/colony/buildings/BuildingShepherd.java:188-203 | Every listed pool paddock gets the new citizen's name as owner, and nothing else changes. |
| ShepherdBuilding.CreateJobRestoresConsistency | src/main/java/com/minecolonies/coremod/colony/buildings/BuildingShepherd.java:188-203 | With all listed paddocks taken, the hut/pool agreement holds for the new worker after the job is created. |
| ShepherdBuilding.SetAssignManually | src/main/java/com/minecolonies/coremod/colony/buildings/BuildingShepherd.java:440-443 | The assignment mode takes the given value. The pool, the list, the current paddock and the worker are unchanged. |
| ShepherdBuilding.SyncWithColony | src/main/java/com/minecolonies/coremod/colony/buildings/BuildingShepherd.java:374-410 | The list keeps, in order, exactly the paddocks whose tile entity stands. A removed current paddock stops being current, and no modelled paddock attribute changes. A hut without a worker throws exactly when some listed paddock still stands. |
| ShepherdBuilding.OnDestroyed | src/main/java/com/minecolonies/coremod/colony/buildings/BuildingShepherd.java:285-310 | Every listed pool paddock becomes untaken with no owner and unlisted ones are unchanged. The call throws exactly when a listed pool paddock has lost its tile entity. |
| ShepherdView.CountVisible | src/main/java/com/minecolonies/coremod/colony/buildings/BuildingShepherd.java:323-340 | The counting pass equals the number of entries the writing pass emits. |
| ShepherdView.CountIsVisiblePaddocks | src/main/java/com/minecolonies/coremod/colony/buildings/BuildingShepherd.java:323-340 | With each position of the order met once, the count is the number of distinct listed paddocks that are free, or that belong to the worker, or all of them when there is no worker. |
| ShepherdView.CountIsAllVisiblePaddocks | src/main/java/com/minecolonies/coremod/colony/buildings/BuildingShepherd.java:323-340 | When the order enumerates the pool (each pool paddock exactly once, as the pool's own iteration does), the count is the number of pool paddocks shown to the hut. |
| ShepherdView.SerializeToView | src/main/java/com/minecolonies/coremod/colony/buildings/BuildingShepherd.java:318-367 | After the worker building's own view data (not modelled), the buffer is the mode, then a count, then exactly that many entries, each of a visible paddock, then the worker name. When the order enumerates the pool, the count is the number of pool paddocks shown to the hut. |
| ShepherdView.ViewRoundTrip | src/main/java/com/minecolonies/coremod/colony/buildings/BuildingShepherd.java:545-563 | Reading the hut's buffer (corrected reading) gives back the mode, the visible entries, the worker name, and a counter equal to the taken entries. |
| ShepherdView.DeserializeAsWritten | src/main/java/com/minecolonies/coremod/colony/buildings/BuildingShepherd.java:545-563 | The counter read from a buffer is the previous counter plus the taken entries read. |
| ShepherdView.DeserializeTwiceDoubleCounts | src/main/java/com/minecolonies/coremod/colony/buildings/BuildingShepherd.java:545-563 | Reading one buffer with one taken paddock twice into one view gives a counter of 2. |
| ShepherdView.Deserialize | src/main/java/com/minecolonies/coremod/colony/buildings/BuildingShepherd.java:545-563 | Corrected: the counter equals the number of taken entries. Whatever view is read into, the reading succeeds on the same buffers and gives the same mode, entries and worker name. |
| ShepherdView.DeserializeIdempotent | src/main/java/com/minecolonies/coremod/colony/buildings/BuildingShepherd.java:545-563 | Corrected: reading a buffer again into the view it produced gives the same view. |
| ShepherdView.ChangeFields | src/main/java/com/minecolonies/coremod/colony/buildings/BuildingShepherd.java:624-639 | A row outside the list fails. Otherwise only that row changes, to taken by the view's worker or to untaken with no owner, and the counter moves by one. |
| ShepherdView.ChangeFieldsKeepsCount | src/main/java/com/minecolonies/coremod/colony/buildings/BuildingShepherd.java:624-639 | A toggle that flips its row keeps the counter equal to the number of taken entries. |
| ShepherdAI.TargetsAreUnambiguous | src/main/java/com/minecolonies/coremod/entity/ai/citizen/shepherd/EntityAIWorkShepherd.java:108-114 | Each of the five shepherd states has exactly one handler, and no other state has one. |
| ShepherdAI.ShepherdStep | src/main/java/com/minecolonies/coremod/entity/ai/citizen/shepherd/EntityAIWorkShepherd.java:108-133 | Idle leads to start-working. Start-working stays while walking and then leads to preparing. Preparing, feeding and slaughter run the preparation, feeding and slaughter handlers. An unregistered state runs nothing. |
| ShepherdAI.StartWorkingAt | src/main/java/com/minecolonies/coremod/entity/ai/citizen/shepherd/EntityAIWorkShepherd.java:126-133 | While the shepherd is still walking to the hut the state is kept. Once there, preparing follows. |
| ShepherdAI.WantInventoryDumped | src/main/java/com/minecolonies/coremod/entity/ai/citizen/shepherd/EntityAIWorkShepherd.java:267-275 | The answer is the flag, and the flag is false afterwards. The flag starts false (line 72) and nothing sets it, so the Java code always answers false. |
| ShepherdAI.LevelDelay | src/main/java/com/minecolonies/coremod/entity/ai/citizen/shepherd/EntityAIWorkShepherd.java:278-282 | The delay is 40 minus the level, but never below 5. |
| ShepherdAI.LevelDelayNonIncreasing | src/main/java/com/minecolonies/coremod/entity/ai/citizen/shepherd/EntityAIWorkShepherd.java:278-282 | A higher level never waits longer. |
| ShepherdAI.Replenish | src/main/java/com/minecolonies/coremod/entity/ai/citizen/shepherd/EntityAIWorkShepherd.java:200-213 | With automatic assignment on and fewer paddocks than the level, a free paddock from the colony is added. Otherwise the hut is unchanged. |
| ShepherdAI.PrepareForFeedingStep | src/main/java/com/minecolonies/coremod/entity/ai/citizen/shepherd/EntityAIWorkShepherd.java:142-184 | Without a hut, or at a level below 1, it keeps preparing. It never sets a delay and only reaches idle, preparing or feeding. Feeding is reached only with food ready, the shepherd arrived, and a current paddock that needs work. |
| ShepherdAI.PrepareAddsAtMostOnePaddock | src/main/java/com/minecolonies/coremod/entity/ai/citizen/shepherd/EntityAIWorkShepherd.java:142-213 | One pass adds exactly the colony's free paddock, and only when assignment is automatic and the reconciled list is below the level. The list grows by at most one. |
| ShepherdAI.PrepareWithoutFieldsWaits | src/main/java/com/minecolonies/coremod/entity/ai/citizen/shepherd/EntityAIWorkShepherd.java:142-160 | With no paddock after reconciliation and top-up, the shepherd stays in preparing. |
| ShepherdAI.PrepareResetsFinishedCycle | src/main/java/com/minecolonies/coremod/entity/ai/citizen/shepherd/EntityAIWorkShepherd.java:164-168 | The pass goes idle exactly when the hut has paddocks, none is current and none needs work. Then every listed paddock needs work again. |
| ShepherdAI.PrepareDropsFinishedPaddock | src/main/java/com/minecolonies/coremod/entity/ai/citizen/shepherd/EntityAIWorkShepherd.java:170-184 | A current paddock that no longer needs work is dropped, and preparation restarts. |
| ShepherdAI.PrepareGoesFeeding | src/main/java/com/minecolonies/coremod/entity/ai/citizen/shepherd/EntityAIWorkShepherd.java:170-177 | A current paddock that needs work leads to feeding exactly when the food is ready and the shepherd has arrived, and otherwise to preparing. With no food set, the paddock stops being current. |
| ShepherdAI.ChooseAndCheck | src/main/java/com/minecolonies/coremod/entity/ai/citizen/shepherd/EntityAIWorkShepherd.java:164-184 | The list stays a permutation of itself. The next state is idle exactly when no paddock is current and none needs work. Otherwise it is feeding exactly when the food is ready, the shepherd has arrived, and the chosen paddock needs work; a kept current paddock with no food set stops being current. |
| ShepherdAI.FeedVerdictOf | src/main/java/com/minecolonies/coremod/entity/ai/citizen/shepherd/EntityAIWorkShepherd.java:297-367 | Slaughter is chosen exactly when some candidate is met with ten or more animals near the paddock counted up to it. Otherwise the first candidate is fed, if there is one. |
| ShepherdAI.InRangeCount | src/main/java/com/minecolonies/coremod/entity/ai/citizen/shepherd/EntityAIWorkShepherd.java:315-322 | The number of animals near the paddock: at most the number of animals, and 0 exactly when none is near. |
| ShepherdAI.CandidateCount | src/main/java/com/minecolonies/coremod/entity/ai/citizen/shepherd/EntityAIWorkShepherd.java:444-462 | The number of candidates: at most the number of animals, and 0 exactly when no animal is a candidate. |
| ShepherdAI.FeedStep | src/main/java/com/minecolonies/coremod/entity/ai/citizen/shepherd/EntityAIWorkShepherd.java:297-389 | Without a current paddock the handler prepares again. With one, an overflow leads to slaughter and no candidate leads back to preparing. A candidate still being walked to keeps feeding. A reached candidate that cannot be fed leads back to preparing. A delay is set exactly when a candidate is reached and an adult is fed, and it is the standard 40. Slaughter is entered only on overflow. |
| ShepherdAI.SlaughterStep | src/main/java/com/minecolonies/coremod/entity/ai/citizen/shepherd/EntityAIWorkShepherd.java:426-514 | Slaughter continues only with a hut, a failing first weapon check and more than five candidates. With a current paddock and a failing first weapon check, while walking or when the recheck passes, slaughter continues exactly when more than five candidates stand near. |
| ShepherdAI.SlaughterThreshold | src/main/java/com/minecolonies/coremod/entity/ai/citizen/shepherd/EntityAIWorkShepherd.java:426-492 | While walking, with a hut, a current paddock and a passing weapon check, slaughter continues exactly when more than five candidates stand near the paddock. |
| ShepherdAI.SlaughterNeedsUnstableWeaponCheck | src/main/java/com/minecolonies/coremod/entity/ai/citizen/shepherd/EntityAIWorkShepherd.java:426-492 | At the animals, slaughter continues only if the two weapon checks of one pass disagree. |
| AIStates.HandlerFor | src/main/java/com/minecolonies/coremod/entity/ai/citizen/shepherd/EntityAIWorkShepherd.java:108-114 | The handler registered first for a state, absent exactly when none is registered. |
| DeliverymanAI.DeliverymanStep | src/main/java/com/minecolonies/coremod/entity/ai/citizen/deliveryman/EntityAIWorkDeliveryman.java:36-40 | Idle leads to start-working, which leads to finding work, which runs the find-work handler. Only these three states run, and requests are never changed. |
| DeliverymanAI.FindNewWorkStep | src/main/java/com/minecolonies/coremod/entity/ai/citizen/deliveryman/EntityAIWorkDeliveryman.java:45-54 | Finding work leaves the requests alone, waits 20 ticks and stays in the same state. |
| DeliverymanAI.IdleReachesPollingForever | src/main/java/com/minecolonies/coremod/entity/ai/citizen/deliveryman/EntityAIWorkDeliveryman.java:36-54 | From idle, every run of two or more handler calls ends in the find-work state. |
| Requests.NewRequest | src/main/java/com/minecolonies/coremod/colony/materials/Request.java:26-32 | A new request needs the given items, has no deliveryman, and is complete exactly when no items were given. |
| Requests.Cancel | src/main/java/com/minecolonies/coremod/colony/materials/Request.java:47-50 | Cancelling completes the request and keeps worker and deliveryman. |
| Requests.ClaimTask | src/main/java/com/minecolonies/coremod/colony/materials/Request.java:57-65 | As written, a claim succeeds exactly when it names the deliveryman already recorded, and changes nothing. |
| Requests.NewRequestRefusesEveryDeliveryman | src/main/java/com/minecolonies/coremod/colony/materials/Request.java:57-65 | As written, a new request refuses every real deliveryman. |
| Requests.ClaimTaskIntended | src/main/java/com/minecolonies/coremod/colony/materials/Request.java:53-65 | Corrected: a claim fails exactly when a different deliveryman is already recorded, and otherwise records the claimant. |
| Requests.IntendedClaimIsExclusive | src/main/java/com/minecolonies/coremod/colony/materials/Request.java:53-65 | Corrected: after A claims a new request, A may claim again and B may not. |
| Requests.ClaimsNeverRecordDeliveryman | src/main/java/com/minecolonies/coremod/colony/materials/Request.java:39-65 | As written, no sequence of claims, cancellations and checks ever records a deliveryman or changes the worker. Only cancellation changes the needed items. |
| PaddockMessages.NewAssignPaddockMessage | src/main/java/com/minecolonies/coremod/network/messages/AssignPaddockMessage.java:42-49 | The message addresses the view's colony and hut, and carries the flag and the paddock. |
| PaddockMessages.AssignToBytes | src/main/java/com/minecolonies/coremod/network/messages/AssignPaddockMessage.java:61-67 | Four values are written, and reading them back from the front of any buffer yields the message and leaves the rest. |
| PaddockMessages.AssignFromBytes | src/main/java/com/minecolonies/coremod/network/messages/AssignPaddockMessage.java:52-58 | A successful read consumes exactly four values and leaves the rest of the buffer. |
| PaddockMessages.AssignRoundTrip | src/main/java/com/minecolonies/coremod/network/messages/AssignPaddockMessage.java:52-67 | Reading back the written message yields it and leaves the rest of the buffer. |
| PaddockMessages.AssignReadIsWritten | src/main/java/com/minecolonies/coremod/network/messages/AssignPaddockMessage.java:52-67 | Whatever is read was written in exactly that order. |
| PaddockMessages.HandleAssign | src/main/java/com/minecolonies/coremod/network/messages/AssignPaddockMessage.java:70-94 | Nothing happens unless the colony exists, the sender may manage huts and the hut is a shepherd's. Then the paddock is assigned or freed as flagged. |
| PaddockMessages.AssignThenFreeMessagesRestore | src/main/java/com/minecolonies/coremod/network/messages/AssignPaddockMessage.java:70-94 | An assign message followed by a free message for a free, unlisted paddock restores the hut. |
| PaddockMessages.NewAssignmentModeMessage | src/main/java/com/minecolonies/coremod/network/messages/AssignmentModePaddockMessage.java:41-47 | The message addresses the view's colony and hut and carries the mode. |
| PaddockMessages.ModeToBytes | src/main/java/com/minecolonies/coremod/network/messages/AssignmentModePaddockMessage.java:58-63 | Three values are written, and reading them back from the front of any buffer yields the message and leaves the rest. |
| PaddockMessages.ModeFromBytes | src/main/java/com/minecolonies/coremod/network/messages/AssignmentModePaddockMessage.java:50-55 | A successful read consumes exactly three values and leaves the rest of the buffer. |
| PaddockMessages.ModeRoundTrip | src/main/java/com/minecolonies/coremod/network/messages/AssignmentModePaddockMessage.java:50-63 | Reading back the written message yields it and leaves the rest of the buffer. |
| PaddockMessages.ModeReadIsWritten | src/main/java/com/minecolonies/coremod/network/messages/AssignmentModePaddockMessage.java:50-63 | Whatever is read was written in exactly that order. |
| PaddockMessages.HandleMode | src/main/java/com/minecolonies/coremod/network/messages/AssignmentModePaddockMessage.java:66-83 | Nothing happens unless the message reaches a shepherd's hut. Then only the assignment mode changes. |
| PaddockMessages.HandleModeIdempotent | src/main/java/com/minecolonies/coremod/network/messages/AssignmentModePaddockMessage.java:66-83 | Delivering a mode message twice has the effect of delivering it once. |
| BuildTool.RotateRight | src/main/java/com/minecolonies/coremod/client/gui/WindowBuildTool.java:646-650 | From a rotation in range, the result is the next quarter turn, wrapping 3 to 0, and stays in 0..3. |
| BuildTool.RotateLeft | src/main/java/com/minecolonies/coremod/client/gui/WindowBuildTool.java:685-689 | From a rotation in range, the result is the previous quarter turn, wrapping 0 to 3, and stays in 0..3. |
| BuildTool.RotateLeftUndoesRight | src/main/java/com/minecolonies/coremod/client/gui/WindowBuildTool.java:646-689 | Left and right rotations undo each other on 0..3. |
| BuildTool.PlacementRotation | src/main/java/com/minecolonies/coremod/client/gui/WindowBuildTool.java:657-673 | 1, 2 and 3 map to 90 clockwise, 180 and 90 counter-clockwise. Every other value means no rotation. |
| BuildTool.RotateButtonsTurnStructure | src/main/java/com/minecolonies/coremod/client/gui/WindowBuildTool.java:646-689 | The right button turns the placed structure a quarter clockwise and the left button a quarter counter-clockwise. |
| BuildTool.NextIndex | src/main/java/com/minecolonies/coremod/client/gui/WindowBuildTool.java:705-715 | An empty list selects 0. Otherwise, for any start at -1 or above, the index is Java's `(i + 1) % n`, in range, and the wrapping successor of an in-range start. |
| BuildTool.PreviousIndex | src/main/java/com/minecolonies/coremod/client/gui/WindowBuildTool.java:720-731 | An empty list selects 0. Otherwise, for any start at 1 - n or above, the index is Java's `(i + n - 1) % n`, in range, and the wrapping predecessor of an in-range start. |
| BuildTool.PreviousUndoesNext | src/main/java/com/minecolonies/coremod/client/gui/WindowBuildTool.java:705-731 | On an index in range, next and previous undo each other. |
| BuildTool.NameAt | src/main/java/com/minecolonies/coremod/client/gui/WindowBuildTool.java:837-845 | The entry at the index, or "" outside the list. |
| BuildTool.KeepIndex | src/main/java/com/minecolonies/coremod/client/gui/WindowBuildTool.java:903-918 | The first index of the previous style in the new list, or 0 when it is absent. |
| BuildTool.KeepSchematicIndex | src/main/java/com/minecolonies/coremod/client/gui/WindowBuildTool.java:984-1000 | The first index whose schematic part is the previous one, or 0 when none matches. |
| BuildTool.UpdateStyles | src/main/java/com/minecolonies/coremod/client/gui/WindowBuildTool.java:903-918 | The styles become the section's styles. The selected style is kept when the new list has it, and otherwise the index is 0. |
| BuildTool.UpdateSchematics | src/main/java/com/minecolonies/coremod/client/gui/WindowBuildTool.java:977-1011 | The schematics become the section and style's list, and the other lists and indices are kept. The first schematic with the previous schematic part is selected, or index 0 when none has it. |
| BuildTool.SetStyle | src/main/java/com/minecolonies/coremod/client/gui/WindowBuildTool.java:880-885 | The style index becomes the given one and the section is kept. The schematics are reloaded for the section and the newly selected style. |
| BuildTool.SetSchematic | src/main/java/com/minecolonies/coremod/client/gui/WindowBuildTool.java:953-959 | The selected schematic is the list entry at the index, or "" outside the list. Every list and every other index is kept. |
| BuildTool.SetSection | src/main/java/com/minecolonies/coremod/client/gui/WindowBuildTool.java:805-832 | Selecting a section loads that section's styles. |
| BuildTool.NextSection | src/main/java/com/minecolonies/coremod/client/gui/WindowBuildTool.java:705-715 | The section index becomes the next one, wrapping, and the styles are that section's. |
| BuildTool.PreviousSection | src/main/java/com/minecolonies/coremod/client/gui/WindowBuildTool.java:720-731 | The section index becomes the previous one, wrapping, and the styles are that section's. |
| BuildTool.NextStyle | src/main/java/com/minecolonies/coremod/client/gui/WindowBuildTool.java:850-860 | The style index becomes the next one, wrapping, within the same section. |
| BuildTool.PreviousStyle | src/main/java/com/minecolonies/coremod/client/gui/WindowBuildTool.java:865-875 | The style index becomes the previous one, wrapping, within the same section. |
| BuildTool.NextSchematic | src/main/java/com/minecolonies/coremod/client/gui/WindowBuildTool.java:923-933 | The schematic index becomes the next one, wrapping, and every list and other index is kept. |
| BuildTool.PreviousSchematic | src/main/java/com/minecolonies/coremod/client/gui/WindowBuildTool.java:938-948 | The schematic index becomes the previous one, wrapping, and every list and other index is kept. |
| BuildTool.NextThenPreviousRestores | src/main/java/com/minecolonies/coremod/client/gui/WindowBuildTool.java:705-948 | Next then previous restores the section, style and schematic selections, and the styles shown are the section's own. |
| BuildTool.StepsLandInRange | src/main/java/com/minecolonies/coremod/client/gui/WindowBuildTool.java:705-948 | After any next step, every non-empty list has its index in range. |

## Left out

- Persistence (NBT read and write) and the byte-level buffer encoding. Buffers are modelled as ordered sequences of typed values.
- ShepherdView.SerializeToView: the worker building's own view data, written first by `super.serializeToView` (BuildingShepherd.java:320) and read first by `super.deserialize` (line 548), is not modelled. The buffers here start at the hut's mode.
- ShepherdBuilding: list entries are assumed to be the pool's own paddock objects. After an NBT load they may be separate copies (`readFromNBT` fills the list from `Paddock.createFromNBT`, BuildingShepherd.java:252-262). The model does not track their needsWork and owner apart from the pool's.
- ShepherdView.DeserializeAsWritten: a malformed buffer gives no view. The Java reader instead throws from the buffer and leaves the view half updated, because `fields` has already been replaced (BuildingShepherd.java:547).
- Paddock extents (`calculateSize`), block updates and tile-entity naming. Only whether a paddock's tile entity exists is modelled.
- Movement, inventory handling, item lookup, breeding and damage in the shepherd AI. They enter each handler as observed booleans and an animal list.
- The food check before feeding (`canGoFeeding`). Only its three outcomes enter, as an observation: no food set, food not at hand, or ready.
- The AI scheduler that honours delays and the exception handling around handlers. Steps are counted in handler runs.
- The shuffle's randomness. Any permutation is accepted.
- Permissions and colony lookup in the messages. They enter as observed booleans and an optional hut.
- The colony's free-paddock lookup. Its answer is an observed value, and its effect on the pool belongs to colony code that is not part of this model.
- Widget labels, enabling, localisation, schematic downloads and network sends in the build tool and the view.
- `PaddockGuiHandler`, `JobShepherd` and `BlockHutShepherd`. They are GUI factories and constants with no behaviour to model.
- BuildTool.RotateRight: does not model 32-bit overflow of `rotation + 1`. The rotation starts at 0, or at the stored setting when a structure is active (WindowBuildTool.java:236). This window only stores values in 0..3 (WindowBuildTool.java:674), so it stays in 0..3.
- BuildTool.NextIndex: does not model 32-bit overflow of the index arithmetic. Indices are bounded by list sizes.
- ShepherdBuilding.SyncWithColony: the paddock's inventory field refresh is not modelled (BuildingShepherd.java:402-406 copies the tile entity's inventory into the pool paddock and the current paddock). The model has no paddock inventory.
- The `(PaddockTileEntity)` casts in `syncWithColony` and `onDestroyed` (BuildingShepherd.java:384-385 and 296) throw `ClassCastException` when another kind of tile entity stands at a paddock position. The world is modelled only as the set of positions holding a paddock tile entity, so that fault is not modelled.
- DeliverymanAI.FindNewWorkStep: does not model the `NullPointerException` that `findNewWork` raises when the worker has no colony (EntityAIWorkDeliveryman.java:47-49). The colony is assumed present.
- ShepherdView.CountVisible: the pool's iteration order is a parameter. The map's real order belongs to the Java library.

## Findings

| source | as written | input that shows it | evidently intended | confidence | as-written member | corrected member |
|---|---|---|---|---|---|---|
| src/main/java/com/minecolonies/coremod/colony/materials/Request.java:57-65 | The claim throws whenever the claimant differs from the recorded deliveryman. The worker is never null, so a new request, which has none recorded, refuses every real deliveryman. | A new request claimed by any citizen | Refuse only when a different deliveryman is already recorded ("cannot claim the same request twice") | not executed | Requests.NewRequestRefusesEveryDeliveryman | Requests.ClaimTaskIntended |
| src/main/java/com/minecolonies/coremod/colony/buildings/BuildingShepherd.java:545-563 | Reading the view adds the taken paddocks to the counter without resetting it, though the entry list is rebuilt | A buffer with one taken paddock read twice into one view gives a counter of 2 | The counter equals the number of taken entries read | not executed | ShepherdView.DeserializeTwiceDoubleCounts | ShepherdView.Deserialize |

=== FILE: ai_states.dfy ===
/**
 * The states every citizen AI moves through, and the registration tables
 * that bind a state to the handler run while the citizen is in it.
 */
module AIStates {
  import opened Wrappers

  /** The states used by the shepherd and the deliveryman. */
  datatype AIState =
    | Idle
    | StartWorking
    | Preparing
    | ShepherdFeed
    | ShepherdSlaughter
    | DeliverymanFindNewWork

  /** The handler registered first for `s` in a registration table, if any. */
  function HandlerFor<H>(table: seq<(AIState, H)>, s: AIState): (r: Option<H>)
    ensures r.None? <==> forall i :: 0 <= i < |table| ==> table[i].0 != s
    ensures r.Some? ==> exists i :: 0 <= i < |table| && table[i] == (s, r.value) && FirstFor(table, s, i)
  {
    if |table| == 0 then None
    else if table[0].0 == s then
      assert FirstFor(table, s, 0);
      Some(table[0].1)
    else
      var r := HandlerFor(table[1..], s);
      assert r.Some? ==> exists i :: 1 <= i < |table| && table[i] == (s, r.value) && FirstFor(table, s, i) by {
        if r.Some? {
          var i :| 0 <= i < |table[1..]| && table[1..][i] == (s, r.value) && FirstFor(table[1..], s, i);
          assert table[i + 1] == (s, r.value);
          assert FirstFor(table, s, i + 1) by {
            forall k | 0 <= k < i + 1 ensures table[k].0 != s {
              if k > 0 { assert table[k] == table[1..][k - 1]; }
            }
          }
        }
      }
      r
  }

  /** No entry before index `i` is registered for `s`. */
  predicate FirstFor<H>(table: seq<(AIState, H)>, s: AIState, i: nat)
    requires i <= |table|
  {
    forall k :: 0 <= k < i ==> table[k].0 != s
  }

  /** Every state is registered at most once. */
  predicate Unambiguous<H>(table: seq<(AIState, H)>) {
    forall i, j :: 0 <= i < j < |table| ==> table[i].0 != table[j].0
  }
}

=== FILE: build_tool.dfy ===
/**
 * The build tool's selection arithmetic: the structure's rotation, the
 * cyclic stepping through sections, styles and schematics, the guarded name
 * lookups, and the rule that keeps the selected style or schematic across a
 * list change when it can. Java's `%` truncates toward zero; it is written out
 * as `JavaRem`.
 */
module BuildTool {
  import opened Paddocks

  /** Number of distinct rotations. */
  const PossibleRotations := 4
  /** Rotation step for one quarter turn clockwise. */
  const RotateRightStep := 1
  /** Rotation value for a half turn. */
  const Rotate180 := 2
  /** Rotation step for one quarter turn counter-clockwise. */
  const RotateLeftStep := 3

  /** Java's remainder: the sign follows the dividend. */
  function JavaRem(a: int, n: int): (r: int)
    requires n > 0
    ensures a >= 0 ==> 0 <= r < n && r == a % n
    ensures a < 0 ==> -n < r <= 0 && r == -((-a) % n)
  {
    if a >= 0 then a % n else -((-a) % n)
  }

  /** A remainder below the divisor is the value itself; one divisor above, the value less the divisor. */
  lemma WrapOnce(a: int, n: int)
    requires n > 0
    ensures 0 <= a < n ==> a % n == a
    ensures n <= a < 2 * n ==> a % n == a - n
  {
    if n <= a < 2 * n {
      assert a == n * 1 + (a - n);
    }
  }

  /** Rotate one quarter clockwise. */
  function RotateRight(rotation: int): (r: int)
    ensures rotation >= -1 ==> 0 <= r < PossibleRotations
    ensures 0 <= rotation < PossibleRotations - 1 ==> r == rotation + 1
    ensures rotation == PossibleRotations - 1 ==> r == 0
  {
    WrapOnce(rotation + RotateRightStep, PossibleRotations);
    JavaRem(rotation + RotateRightStep, PossibleRotations)
  }

  /** Rotate one quarter counter-clockwise. */
  function RotateLeft(rotation: int): (r: int)
    ensures rotation >= -3 ==> 0 <= r < PossibleRotations
    ensures 0 < rotation < PossibleRotations ==> r == rotation - 1
    ensures rotation == 0 ==> r == PossibleRotations - 1
  {
    WrapOnce(rotation + RotateLeftStep, PossibleRotations);
    JavaRem(rotation + RotateLeftStep, PossibleRotations)
  }

  /** On a rotation in range, turning right and turning left undo each other. */
  lemma RotateLeftUndoesRight(rotation: int)
    requires 0 <= rotation < PossibleRotations
    ensures RotateLeft(RotateRight(rotation)) == rotation
    ensures RotateRight(RotateLeft(rotation)) == rotation
  {
  }

  /** The structure rotations the placement settings know. */
  datatype Rotation = NoRotation | Clockwise90 | Clockwise180 | CounterClockwise90

  /** A quarter turn clockwise of a placement rotation. */
  function Clockwise(r: Rotation): Rotation {
    match r
    case NoRotation => Clockwise90
    case Clockwise90 => Clockwise180
    case Clockwise180 => CounterClockwise90
    case CounterClockwise90 => NoRotation
  }

  /** The placement rotation for a rotation value; any value but 1, 2 or 3 means none. */
  function PlacementRotation(rotation: int): (r: Rotation)
    ensures r == NoRotation <==> rotation !in {RotateRightStep, Rotate180, RotateLeftStep}
    ensures r == Clockwise90 <==> rotation == RotateRightStep
    ensures r == Clockwise180 <==> rotation == Rotate180
    ensures r == CounterClockwise90 <==> rotation == RotateLeftStep
  {
    if rotation == RotateRightStep then Clockwise90
    else if rotation == Rotate180 then Clockwise180
    else if rotation == RotateLeftStep then CounterClockwise90
    else NoRotation
  }

  /**
   * Clicking "rotate right" turns the placed structure a quarter clockwise,
   * and "rotate left" a quarter counter-clockwise, from any rotation in range.
   */
  lemma RotateButtonsTurnStructure(rotation: int)
    requires 0 <= rotation < PossibleRotations
    ensures PlacementRotation(RotateRight(rotation)) == Clockwise(PlacementRotation(rotation))
    ensures Clockwise(PlacementRotation(RotateLeft(rotation))) == PlacementRotation(rotation)
  {
  }

  /** The index after `i` in a list of `n`, wrapping; 0 for an empty list. */
  function NextIndex(i: int, n: nat): (r: int)
    ensures n == 0 ==> r == 0
    ensures n > 0 && i >= -1 ==> 0 <= r < n && r == (i + 1) % n
    ensures n > 0 && 0 <= i < n - 1 ==> r == i + 1
    ensures n > 0 && i == n - 1 ==> r == 0
  {
    if n == 0 then 0
    else
      WrapOnce(i + 1, n);
      JavaRem(i + 1, n)
  }

  /** The index before `i` in a list of `n`, wrapping; 0 for an empty list. */
  function PreviousIndex(i: int, n: nat): (r: int)
    ensures n == 0 ==> r == 0
    ensures n > 0 && i >= 1 - n ==> 0 <= r < n && r == (i + n - 1) % n
    ensures n > 0 && 0 < i <= n ==> r == i - 1
    ensures n > 0 && i == 0 ==> r == n - 1
  {
    if n == 0 then 0
    else
      WrapOnce(i + n - 1, n);
      JavaRem(i + n - 1, n)
  }

  /** On an index in range, stepping forward and back undo each other. */
  lemma PreviousUndoesNext(i: int, n: nat)
    requires 0 <= i < n
    ensures PreviousIndex(NextIndex(i, n), n) == i
    ensures NextIndex(PreviousIndex(i, n), n) == i
  {
  }

  /** The entry at `i`, or "" when `i` is outside the list. */
  function NameAt(names: seq<string>, i: int): (r: string)
    ensures 0 <= i < |names| ==> r == names[i]
    ensures !(0 <= i < |names|) ==> r == ""
  {
    if i < 0 || i >= |names| then "" else names[i]
  }

  /** The index of `name` in the new list, or 0 when it is not there. */
  function KeepIndex(names: seq<string>, name: string): (r: int)
    ensures 0 <= r && (|names| > 0 ==> r < |names|)
    ensures name in names ==> NameAt(names, r) == name && name !in names[..r]
    ensures name !in names ==> r == 0
  {
    var k := IndexOf(names, name);
    if k == -1 then 0 else k
  }

  /** The index of the first entry whose schematic part is `wanted`, or 0 when none has it. */
  function KeepSchematicIndex(names: seq<string>, part: string -> string, wanted: string): (r: nat)
    ensures |names| > 0 ==> r < |names|
    ensures (exists j :: 0 <= j < |names| && part(names[j]) == wanted) ==>
      r < |names| && part(names[r]) == wanted
    ensures forall j :: 0 <= j < r && j < |names| ==> part(names[j]) != wanted
    ensures (forall j :: 0 <= j < |names| ==> part(names[j]) != wanted) ==> r == 0
    decreases |names|
  {
    if |names| == 0 then 0
    else if part(names[0]) == wanted then 0
    else
      var k := KeepSchematicIndex(names[1..], part, wanted);
      if k == 0 && (forall j :: 0 <= j < |names[1..]| ==> part(names[1..][j]) != wanted) then 0
      else k + 1
  }

  /**
   * Where the structure lists come from: the styles of a section, the
   * schematics of a section and style, and the schematic part of a full
   * schematic name.
   */
  datatype Catalog = Catalog(
    stylesFor: string -> seq<string>,
    schematicsFor: (string, string) -> seq<string>,
    schematicPart: string -> string)

  /** The lists shown by the build tool and the index selected in each. */
  datatype Selection = Selection(
    sections: seq<string>, sectionIndex: int,
    styles: seq<string>, styleIndex: int,
    schematics: seq<string>, schematicIndex: int)

  function SectionName(s: Selection): string { NameAt(s.sections, s.sectionIndex) }
  function StyleName(s: Selection): string { NameAt(s.styles, s.styleIndex) }
  function SchematicName(s: Selection): string { NameAt(s.schematics, s.schematicIndex) }

  /**
   * Reloads the schematics for the selected section and style, keeping the
   * first schematic with the same schematic part as the one selected before,
   * or selecting the first one.
   */
  function UpdateSchematics(s: Selection, cat: Catalog): (r: Selection)
    ensures r.sections == s.sections && r.sectionIndex == s.sectionIndex
    ensures r.styles == s.styles && r.styleIndex == s.styleIndex
    ensures r.schematics == cat.schematicsFor(SectionName(s), StyleName(s))
    ensures |r.schematics| > 0 ==> 0 <= r.schematicIndex < |r.schematics|
    ensures
      var wanted := if SchematicName(s) == "" then "" else cat.schematicPart(SchematicName(s));
      (exists j :: 0 <= j < |r.schematics| && cat.schematicPart(r.schematics[j]) == wanted)
        ==> cat.schematicPart(SchematicName(r)) == wanted
    ensures
      var wanted := if SchematicName(s) == "" then "" else cat.schematicPart(SchematicName(s));
      forall j :: 0 <= j < r.schematicIndex && j < |r.schematics| ==> cat.schematicPart(r.schematics[j]) != wanted
    ensures
      var wanted := if SchematicName(s) == "" then "" else cat.schematicPart(SchematicName(s));
      (forall j :: 0 <= j < |r.schematics| ==> cat.schematicPart(r.schematics[j]) != wanted) ==> r.schematicIndex == 0
  {
    var name := SchematicName(s);
    var wanted := if name == "" then "" else cat.schematicPart(name);
    var loaded := cat.schematicsFor(SectionName(s), StyleName(s));
    s.(schematics := loaded, schematicIndex := KeepSchematicIndex(loaded, cat.schematicPart, wanted))
  }

  /** Selects the style at `index`, then reloads the schematics. */
  function SetStyle(s: Selection, index: int, cat: Catalog): (r: Selection)
    ensures r.styleIndex == index && r.styles == s.styles
    ensures r.sections == s.sections && r.sectionIndex == s.sectionIndex
    ensures r.schematics == cat.schematicsFor(SectionName(s), NameAt(s.styles, index))
  {
    UpdateSchematics(s.(styleIndex := index), cat)
  }

  /** Reloads the styles for the selected section, keeping the selected style when the new list has it. */
  function UpdateStyles(s: Selection, cat: Catalog): (r: Selection)
    ensures r.sections == s.sections && r.sectionIndex == s.sectionIndex
    ensures r.styles == cat.stylesFor(SectionName(s))
    ensures |r.styles| > 0 ==> 0 <= r.styleIndex < |r.styles|
    ensures StyleName(s) in r.styles ==> StyleName(r) == StyleName(s)
    ensures StyleName(s) !in r.styles ==> r.styleIndex == 0
  {
    var current := StyleName(s);
    var loaded := cat.stylesFor(SectionName(s));
    SetStyle(s.(styles := loaded), KeepIndex(loaded, current), cat)
  }

  /** Selects the section at `index`, then reloads the styles. */
  function SetSection(s: Selection, index: int, cat: Catalog): (r: Selection)
    ensures r.sectionIndex == index && r.sections == s.sections
    ensures r.styles == cat.stylesFor(NameAt(s.sections, index))
  {
    UpdateStyles(s.(sectionIndex := index), cat)
  }

  /** Selects the schematic at `index`. */
  function SetSchematic(s: Selection, index: int): (r: Selection)
    ensures SchematicName(r) == NameAt(s.schematics, index)
    ensures r.sections == s.sections && r.sectionIndex == s.sectionIndex
    ensures r.styles == s.styles && r.styleIndex == s.styleIndex && r.schematics == s.schematics
  {
    s.(schematicIndex := index)
  }

  /** Selects the next section, wrapping around the list. */
  function NextSection(s: Selection, cat: Catalog): (r: Selection)
    ensures r.sections == s.sections && r.sectionIndex == NextIndex(s.sectionIndex, |s.sections|)
    ensures r.styles == cat.stylesFor(NameAt(s.sections, r.sectionIndex))
  {
    SetSection(s, NextIndex(s.sectionIndex, |s.sections|), cat)
  }

  /** Selects the previous section, wrapping around the list. */
  function PreviousSection(s: Selection, cat: Catalog): (r: Selection)
    ensures r.sections == s.sections && r.sectionIndex == PreviousIndex(s.sectionIndex, |s.sections|)
    ensures r.styles == cat.stylesFor(NameAt(s.sections, r.sectionIndex))
  {
    SetSection(s, PreviousIndex(s.sectionIndex, |s.sections|), cat)
  }

  /** Selects the next style, wrapping around the list. */
  function NextStyle(s: Selection, cat: Catalog): (r: Selection)
    ensures r.styles == s.styles && r.styleIndex == NextIndex(s.styleIndex, |s.styles|)
    ensures r.sections == s.sections && r.sectionIndex == s.sectionIndex
  {
    SetStyle(s, NextIndex(s.styleIndex, |s.styles|), cat)
  }

  /** Selects the previous style, wrapping around the list. */
  function PreviousStyle(s: Selection, cat: Catalog): (r: Selection)
    ensures r.styles == s.styles && r.styleIndex == PreviousIndex(s.styleIndex, |s.styles|)
    ensures r.sections == s.sections && r.sectionIndex == s.sectionIndex
  {
    SetStyle(s, PreviousIndex(s.styleIndex, |s.styles|), cat)
  }

  /** Selects the next schematic, wrapping around the list. */
  function NextSchematic(s: Selection): (r: Selection)
    ensures r.schematics == s.schematics && r.schematicIndex == NextIndex(s.schematicIndex, |s.schematics|)
    ensures r.styles == s.styles && r.styleIndex == s.styleIndex && r.schematics == s.schematics
  {
    SetSchematic(s, NextIndex(s.schematicIndex, |s.schematics|))
  }

  /** Selects the previous schematic, wrapping around the list. */
  function PreviousSchematic(s: Selection): (r: Selection)
    ensures r.schematics == s.schematics && r.schematicIndex == PreviousIndex(s.schematicIndex, |s.schematics|)
    ensures r.styles == s.styles && r.styleIndex == s.styleIndex && r.schematics == s.schematics
  {
    SetSchematic(s, PreviousIndex(s.schematicIndex, |s.schematics|))
  }

  /**
   * Stepping to the next section and back restores the section, and the
   * styles listed are the section's own; the same holds for styles within a
   * section and schematics within a style.
   */
  lemma NextThenPreviousRestores(s: Selection, cat: Catalog)
    requires 0 <= s.sectionIndex < |s.sections|
    requires 0 <= s.styleIndex < |s.styles|
    requires 0 <= s.schematicIndex < |s.schematics|
    ensures PreviousSection(NextSection(s, cat), cat).sectionIndex == s.sectionIndex
    ensures PreviousSection(NextSection(s, cat), cat).styles == cat.stylesFor(SectionName(s))
    ensures PreviousStyle(NextStyle(s, cat), cat).styleIndex == s.styleIndex
    ensures PreviousStyle(NextStyle(s, cat), cat).styles == s.styles
    ensures PreviousSchematic(NextSchematic(s)) == s
  {
    PreviousUndoesNext(s.sectionIndex, |s.sections|);
    PreviousUndoesNext(s.styleIndex, |s.styles|);
    PreviousUndoesNext(s.schematicIndex, |s.schematics|);
  }

  /**
   * Whatever the indices were, after any section, style or schematic step
   * every non-empty list shown has its index in range.
   */
  lemma StepsLandInRange(s: Selection, cat: Catalog)
    requires s.schematicIndex >= -1 && s.styleIndex >= -1 && s.sectionIndex >= -1
    ensures var r := NextSection(s, cat);
      (|r.sections| > 0 ==> 0 <= r.sectionIndex < |r.sections|)
      && (|r.styles| > 0 ==> 0 <= r.styleIndex < |r.styles|)
      && (|r.schematics| > 0 ==> 0 <= r.schematicIndex < |r.schematics|)
    ensures var r := NextStyle(s, cat);
      (|r.styles| > 0 ==> 0 <= r.styleIndex < |r.styles|)
      && (|r.schematics| > 0 ==> 0 <= r.schematicIndex < |r.schematics|)
    ensures var r := NextSchematic(s);
      |r.schematics| > 0 ==> 0 <= r.schematicIndex < |r.schematics|
  {
  }
}

=== FILE: deliveryman_ai.dfy ===
/**
 * The deliveryman's AI: it walks from idle to looking for work, and then polls
 * the colony's requests forever, waiting a second between polls.
 */
module DeliverymanAI {
  import opened Wrappers
  import opened AIStates
  import opened Requests

  /** Ticks waited when no work was found. */
  const NotFoundTimeout := 20

  /** The handlers of the deliveryman AI. */
  datatype Handler = ToStartWorking | ToFindNewWork | FindNewWork

  /** The deliveryman's registration table. */
  const Targets: seq<(AIState, Handler)> := [
    (Idle, ToStartWorking),
    (StartWorking, ToFindNewWork),
    (DeliverymanFindNewWork, FindNewWork)
  ]

  /** What a handler hands back: the next state, the delay it set, and the colony's requests. */
  datatype Step = Step(state: AIState, delay: Option<nat>, requests: seq<Request>)

  /** Looking for work reads the requests, leaves them alone, and waits before looking again. */
  function FindNewWorkStep(requests: seq<Request>): (r: Step)
    ensures r.state == DeliverymanFindNewWork
    ensures r.delay == Some(NotFoundTimeout)
    ensures r.requests == requests
  {
    Step(DeliverymanFindNewWork, Some(NotFoundTimeout), requests)
  }

  /** One tick of the deliveryman: the handler registered for the state runs. */
  function DeliverymanStep(state: AIState, requests: seq<Request>): (r: Option<Step>)
    ensures r.None? <==> state !in {Idle, StartWorking, DeliverymanFindNewWork}
    ensures state == Idle ==> r == Some(Step(StartWorking, None, requests))
    ensures state == StartWorking ==> r == Some(Step(DeliverymanFindNewWork, None, requests))
    ensures state == DeliverymanFindNewWork ==> r == Some(FindNewWorkStep(requests))
    ensures r.Some? ==> r.value.requests == requests
  {
    match HandlerFor(Targets, state)
    case None => None
    case Some(h) =>
      match h
      case ToStartWorking => Some(Step(StartWorking, None, requests))
      case ToFindNewWork => Some(Step(DeliverymanFindNewWork, None, requests))
      case FindNewWork => Some(FindNewWorkStep(requests))
  }

  /** The state after `n` handler runs from `state` (an unregistered state stays put). */
  function Run(state: AIState, requests: seq<Request>, n: nat): AIState
    decreases n
  {
    if n == 0 then state
    else match DeliverymanStep(state, requests)
      case None => state
      case Some(s) => Run(s.state, s.requests, n - 1)
  }

  /**
   * From idle, two handler runs reach the polling state, and the deliveryman
   * polls from then on.
   */
  lemma {:induction false} IdleReachesPollingForever(requests: seq<Request>, n: nat)
    requires n >= 2
    ensures Run(Idle, requests, n) == DeliverymanFindNewWork
  {
    PollingIsForever(requests, n - 2);
  }

  /** Polling runs forever. */
  lemma {:induction false} PollingIsForever(requests: seq<Request>, n: nat)
    ensures Run(DeliverymanFindNewWork, requests, n) == DeliverymanFindNewWork
    decreases n
  {
    if n > 0 {
      PollingIsForever(requests, n - 1);
    }
  }
}

=== FILE: paddock_messages.dfy ===
/**
 * The two messages a client sends about a shepherd's paddocks: assigning or
 * freeing one paddock, and switching between manual and automatic
 * assignment. Each is written to a buffer, read back on the server, and
 * carried out there when the colony exists, the sender may manage huts, and
 * the hut is a shepherd's hut.
 */
module PaddockMessages {
  import opened Wrappers
  import opened Paddocks
  import opened Wire
  import opened ShepherdBuilding

  /** What a hut view knows of itself: its colony's id and its own position. */
  datatype HutRef = HutRef(colonyId: int32, buildingId: Pos)

  /** Assign (`assign`) or free (`!assign`) the paddock at `field`. */
  datatype AssignPaddockMessage = AssignPaddockMessage(colonyId: int32, buildingId: Pos, assign: bool, field: Pos)

  /** Switch the hut to manual (`true`) or automatic (`false`) paddock assignment. */
  datatype AssignmentModeMessage = AssignmentModeMessage(colonyId: int32, buildingId: Pos, assignmentMode: bool)

  /** The assignment message built from a hut view addresses that hut. */
  function NewAssignPaddockMessage(hut: HutRef, assign: bool, field: Pos): (m: AssignPaddockMessage)
    ensures m.colonyId == hut.colonyId && m.buildingId == hut.buildingId
    ensures m.assign == assign && m.field == field
  {
    AssignPaddockMessage(hut.colonyId, hut.buildingId, assign, field)
  }

  /** The mode message built from a hut view addresses that hut. */
  function NewAssignmentModeMessage(hut: HutRef, mode: bool): (m: AssignmentModeMessage)
    ensures m.colonyId == hut.colonyId && m.buildingId == hut.buildingId
    ensures m.assignmentMode == mode
  {
    AssignmentModeMessage(hut.colonyId, hut.buildingId, mode)
  }

  /** Writes the colony id, the hut, the flag and the paddock, in that order. */
  function AssignToBytes(m: AssignPaddockMessage): (out: seq<Field>)
    ensures |out| == 4
    ensures forall rest :: AssignFromBytes(out + rest) == Some((m, rest))
  {
    [IntF(m.colonyId as int), PosF(m.buildingId), BoolF(m.assign), PosF(m.field)]
  }

  /** Reads an assignment message, in the order it is written, from the front of a buffer. */
  function AssignFromBytes(buf: seq<Field>): (r: Option<(AssignPaddockMessage, seq<Field>)>)
    ensures r.Some? ==> |buf| >= 4 && r.value.1 == buf[4..]
  {
    if |buf| >= 4 && buf[0].IntF? && -0x8000_0000 <= buf[0].i < 0x8000_0000
       && buf[1].PosF? && buf[2].BoolF? && buf[3].PosF?
    then Some((AssignPaddockMessage(buf[0].i as int32, buf[1].p, buf[2].b, buf[3].p), buf[4..]))
    else None
  }

  /** Reading back what was written yields the same message and leaves the rest of the buffer. */
  lemma AssignRoundTrip(m: AssignPaddockMessage, rest: seq<Field>)
    ensures AssignFromBytes(AssignToBytes(m) + rest) == Some((m, rest))
  {
    assert (AssignToBytes(m) + rest)[4..] == rest;
  }

  /** Whatever is read was written in exactly that form. */
  lemma AssignReadIsWritten(buf: seq<Field>)
    requires AssignFromBytes(buf).Some?
    ensures buf == AssignToBytes(AssignFromBytes(buf).value.0) + AssignFromBytes(buf).value.1
  {
    var m := AssignFromBytes(buf).value.0;
    assert buf[..4] == AssignToBytes(m);
    assert buf == buf[..4] + buf[4..];
  }

  /** Writes the colony id, the hut and the mode, in that order. */
  function ModeToBytes(m: AssignmentModeMessage): (out: seq<Field>)
    ensures |out| == 3
    ensures forall rest :: ModeFromBytes(out + rest) == Some((m, rest))
  {
    [IntF(m.colonyId as int), PosF(m.buildingId), BoolF(m.assignmentMode)]
  }

  /** Reads a mode message, in the order it is written, from the front of a buffer. */
  function ModeFromBytes(buf: seq<Field>): (r: Option<(AssignmentModeMessage, seq<Field>)>)
    ensures r.Some? ==> |buf| >= 3 && r.value.1 == buf[3..]
  {
    if |buf| >= 3 && buf[0].IntF? && -0x8000_0000 <= buf[0].i < 0x8000_0000
       && buf[1].PosF? && buf[2].BoolF?
    then Some((AssignmentModeMessage(buf[0].i as int32, buf[1].p, buf[2].b), buf[3..]))
    else None
  }

  /** Reading back what was written yields the same message and leaves the rest of the buffer. */
  lemma ModeRoundTrip(m: AssignmentModeMessage, rest: seq<Field>)
    ensures ModeFromBytes(ModeToBytes(m) + rest) == Some((m, rest))
  {
    assert (ModeToBytes(m) + rest)[3..] == rest;
  }

  /** Whatever is read was written in exactly that form. */
  lemma ModeReadIsWritten(buf: seq<Field>)
    requires ModeFromBytes(buf).Some?
    ensures buf == ModeToBytes(ModeFromBytes(buf).value.0) + ModeFromBytes(buf).value.1
  {
    var m := ModeFromBytes(buf).value.0;
    assert buf[..3] == ModeToBytes(m);
    assert buf == buf[..3] + buf[3..];
  }

  /**
   * What the server finds for a message: whether the colony with the
   * message's id exists, whether the sender may manage its huts, and the
   * shepherd's hut at the message's position, if any.
   */
  datatype ServerSide = ServerSide(colonyFound: bool, permitted: bool, hut: Option<Shepherd>, world: World)

  /** Whether the message reaches a hut at all. */
  predicate Reaches(srv: ServerSide) {
    srv.colonyFound && srv.permitted && srv.hut.Some?
  }

  /**
   * Carries out an assignment message: nothing happens unless it reaches a
   * hut; then the paddock is assigned or freed, with the faults those can
   * throw.
   */
  function HandleAssign(m: AssignPaddockMessage, srv: ServerSide): (r: Option<Outcome>)
    ensures r.None? <==> !Reaches(srv)
    ensures r.Some? && m.assign ==> r.value == AssignField(srv.hut.value, m.field)
    ensures r.Some? && !m.assign ==> r.value == FreeField(srv.hut.value, m.field, srv.world)
  {
    if !srv.colonyFound then None
    else if !srv.permitted then None
    else match srv.hut
      case None => None
      case Some(b) =>
        if m.assign then Some(AssignField(b, m.field)) else Some(FreeField(b, m.field, srv.world))
  }

  /**
   * Sending "assign" and then "free" for a free, unlisted paddock of a hut
   * with a worker leaves the hut as it was; the free throws only when the
   * paddock's tile entity is gone.
   */
  lemma AssignThenFreeMessagesRestore(hut: HutRef, field: Pos, srv: ServerSide)
    requires Reaches(srv)
    requires field in srv.hut.value.pool && IsFree(srv.hut.value.pool[field])
    requires field !in srv.hut.value.fields && srv.hut.value.worker.Some?
    ensures
      var first := HandleAssign(NewAssignPaddockMessage(hut, true, field), srv);
      var second := HandleAssign(NewAssignPaddockMessage(hut, false, field), srv.(hut := Some(first.value.after)));
      && first.value.thrown.None?
      && second.value.after == srv.hut.value
      && (second.value.thrown.None? <==> field in srv.world)
  {
    AssignThenFreeRestores(srv.hut.value, field, srv.world);
  }

  /**
   * Carries out a mode message: nothing happens unless it reaches a hut; then
   * only the hut's assignment mode changes, to the one the message carries.
   */
  function HandleMode(m: AssignmentModeMessage, srv: ServerSide): (r: Option<Shepherd>)
    ensures r.None? <==> !Reaches(srv)
    ensures r.Some? ==> r.value == srv.hut.value.(assignManually := m.assignmentMode)
  {
    if !srv.colonyFound then None
    else if !srv.permitted then None
    else match srv.hut
      case None => None
      case Some(b) => Some(SetAssignManually(b, m.assignmentMode))
  }

  /** Delivering a mode message twice has the effect of delivering it once. */
  lemma HandleModeIdempotent(m: AssignmentModeMessage, srv: ServerSide)
    requires Reaches(srv)
    ensures HandleMode(m, srv.(hut := HandleMode(m, srv))) == HandleMode(m, srv)
  {
  }
}

=== FILE: paddocks.dfy ===
/**
 * Paddocks and the colony-wide pool that owns them.
 *
 * A paddock is identified by the block position of its tile entity. The pool
 * maps each position to the paddock's mutable attributes; buildings refer to
 * paddocks only by position and always read them through the pool.
 */
module Paddocks {

  /** A block position in the world. */
  datatype Pos = Pos(x: int, y: int, z: int)

  /**
   * The attributes of a paddock the allocation logic reads and writes:
   * whether some building holds it, the name of the worker holding it
   * ("" for no one), and whether it still needs work in the current cycle.
   */
  datatype Paddock = Paddock(taken: bool, owner: string, needsWork: bool)

  /** What the hut's view shows of one paddock. */
  datatype PaddockView = PaddockView(id: Pos, taken: bool, owner: string)

  /** The colony's paddocks, keyed by position. */
  type Pool = map<Pos, Paddock>

  /** The world, reduced to the set of positions that hold a paddock tile entity. */
  type World = set<Pos>

  /** A paddock nobody holds. */
  predicate IsFree(p: Paddock) {
    !p.taken && p.owner == ""
  }

  /** True when `pos` names a pool paddock whose needsWork flag is set. */
  predicate NeedsWork(pool: Pool, pos: Pos) {
    pos in pool && pool[pos].needsWork
  }

  /** A second update of the same key overrides the first. */
  lemma UpdateTwice(pool: Pool, pos: Pos, first: Paddock, second: Paddock)
    ensures pool[pos := first][pos := second] == pool[pos := second]
  {
  }

  /** Writing back the value a key already has changes nothing. */
  lemma UpdateSame(pool: Pool, pos: Pos)
    requires pos in pool
    ensures pool[pos := pool[pos]] == pool
  {
  }

  /** The first index of `x` in `s`, or -1, as `List.indexOf` answers. */
  function IndexOf<T(==)>(s: seq<T>, x: T): (r: int)
    ensures r == -1 <==> x !in s
    ensures r != -1 ==> 0 <= r < |s| && s[r] == x && x !in s[..r]
  {
    if |s| == 0 then -1
    else if s[0] == x then 0
    else
      var k := IndexOf(s[1..], x);
      if k == -1 then -1
      else
        assert s[..k + 1] == [s[0]] + s[1..][..k];
        k + 1
  }

  /** `s` without its first occurrence of `x` (all of `s` when `x` does not occur). */
  function RemoveFirst<T(==)>(s: seq<T>, x: T): (r: seq<T>)
    ensures x !in s ==> r == s
    ensures x in s ==> r == s[..IndexOf(s, x)] + s[IndexOf(s, x) + 1..]
    ensures multiset(r) == multiset(s) - multiset{x}
  {
    var i := IndexOf(s, x);
    if i == -1 then s
    else
      assert s == s[..i] + [s[i]] + s[i + 1..];
      s[..i] + s[i + 1..]
  }
}

=== FILE: requests.dfy ===
/**
 * A citizen's request for materials, to be fulfilled by a deliveryman: the
 * items still needed, the requesting worker, and the deliveryman recorded as
 * working on it.
 */
module Requests {
  import opened Wrappers

  /** A citizen, by identity. */
  datatype Citizen = Citizen(id: nat)

  /** A stack of items. */
  datatype ItemStack = ItemStack(item: string, count: nat)

  /** A request; the worker is never null, the deliveryman may be. */
  datatype Request = Request(worker: Citizen, deliveryman: Option<Citizen>, needed: seq<ItemStack>)

  /** Why a claim is refused. */
  datatype ClaimError = AlreadyClaimed

  /** A new request needs exactly the given items and has no deliveryman. */
  function NewRequest(worker: Citizen, items: seq<ItemStack>): (r: Request)
    ensures r.worker == worker && r.needed == items && r.deliveryman.None?
    ensures IsCompleted(r) <==> |items| == 0
  {
    Request(worker, None, items)
  }

  /** A request is complete when no more items are needed. */
  predicate IsCompleted(r: Request) {
    |r.needed| == 0
  }

  /** Cancelling drops every needed item, completing the request whatever it needed before. */
  function Cancel(r: Request): (r': Request)
    ensures IsCompleted(r')
    ensures r'.worker == r.worker && r'.deliveryman == r.deliveryman
  {
    r.(needed := [])
  }

  /** Cancelling twice is cancelling once. */
  lemma CancelIdempotent(r: Request)
    ensures Cancel(Cancel(r)) == Cancel(r)
  {
  }

  /**
   * The claim as written: since the worker is never null, any deliveryman
   * other than the recorded one is refused, and the recorded one is stored
   * again. Null is a deliveryman value too (`None`).
   */
  function ClaimTask(r: Request, d: Option<Citizen>): (res: Result<Request, ClaimError>)
    ensures res.Success? <==> d == r.deliveryman
    ensures res.Success? ==> res.value == r
  {
    if d != r.deliveryman then Failure(AlreadyClaimed) else Success(r.(deliveryman := d))
  }

  /**
   * As written, a new request refuses every actual deliveryman: only a null
   * claim succeeds.
   */
  lemma NewRequestRefusesEveryDeliveryman(worker: Citizen, items: seq<ItemStack>, c: Citizen)
    ensures ClaimTask(NewRequest(worker, items), Some(c)).Failure?
    ensures ClaimTask(NewRequest(worker, items), None).Success?
  {
  }

  /**
   * The claim as its documentation and error message intend: refused only
   * when a different deliveryman is already recorded.
   */
  function ClaimTaskIntended(r: Request, d: Option<Citizen>): (res: Result<Request, ClaimError>)
    ensures res.Failure? <==> r.deliveryman.Some? && d != r.deliveryman
    ensures res.Success? ==> res.value == r.(deliveryman := d)
  {
    if r.deliveryman.Some? && d != r.deliveryman then Failure(AlreadyClaimed) else Success(r.(deliveryman := d))
  }

  /**
   * With the intended claim, a new request claimed by A can be claimed by A
   * again but not by anyone else.
   */
  lemma IntendedClaimIsExclusive(worker: Citizen, items: seq<ItemStack>, a: Citizen, b: Citizen)
    requires a != b
    ensures
      var first := ClaimTaskIntended(NewRequest(worker, items), Some(a));
      && first.Success?
      && first.value.deliveryman == Some(a)
      && ClaimTaskIntended(first.value, Some(a)) == first
      && ClaimTaskIntended(first.value, Some(b)).Failure?
  {
  }

  /** What may happen to a request: a claim, a cancellation, or a completion check. */
  datatype Op = Claim(d: Option<Citizen>) | CancelOp | CheckCompleted

  /** The request after `ops`, a refused claim leaving it as it was. */
  function Apply(r: Request, ops: seq<Op>): Request
    decreases |ops|
  {
    if |ops| == 0 then r
    else
      var r' := match ops[0]
        case Claim(d) => (var c := ClaimTask(r, d); if c.Success? then c.value else r)
        case CancelOp => Cancel(r)
        case CheckCompleted => r;
      Apply(r', ops[1..])
  }

  /**
   * As written, no sequence of claims and cancellations ever records a
   * deliveryman or changes the worker, and only cancellation touches the
   * needed items.
   */
  lemma {:induction false} ClaimsNeverRecordDeliveryman(r: Request, ops: seq<Op>)
    ensures Apply(r, ops).deliveryman == r.deliveryman
    ensures Apply(r, ops).worker == r.worker
    ensures (forall i :: 0 <= i < |ops| ==> !ops[i].CancelOp?) ==> Apply(r, ops).needed == r.needed
    decreases |ops|
  {
    if |ops| > 0 {
      var r' := match ops[0]
        case Claim(d) => (var c := ClaimTask(r, d); if c.Success? then c.value else r)
        case CancelOp => Cancel(r)
        case CheckCompleted => r;
      ClaimsNeverRecordDeliveryman(r', ops[1..]);
      assert (forall i :: 0 <= i < |ops| ==> !ops[i].CancelOp?) ==> r'.needed == r.needed;
    }
  }
}

=== FILE: shepherd_ai.dfy ===
/**
 * The shepherd's AI: the handler bound to each state, written as a pure
 * function from what the handler observes to the next state and the hut's
 * new state. Movement, inventory and the entities near a paddock enter as
 * observations; a handler's call to `setDelay` is returned as a value.
 */
module ShepherdAI {
  import opened Wrappers
  import opened Paddocks
  import opened ShepherdBuilding
  import opened AIStates

  /** Delay the shepherd waits after feeding an animal. */
  const StandardDelay := 40
  /** The shortest per-level delay. */
  const SmallestDelay := 5
  /** More adult animals than this must stand in a paddock before one is slaughtered. */
  const MinEntities := 5
  /** Feeding stops and slaughter starts at this many animals near the paddock. */
  const MaxEntities := 10

  /** One animal of the kind the paddock keeps, as the handlers see it. */
  datatype Pig = Pig(inRange: bool, inLove: bool, isChild: bool)

  /** What the check before feeding finds: no food set for the paddock, food not yet at hand, or ready. */
  datatype FoodCheck = NoFoodSet | FoodMissing | FoodReady

  /**
   * What one handler invocation observes: the hut (absent when the worker has
   * none), its level, the world, the paddock the colony would hand out next,
   * whether the movement this handler requests is still under way, the
   * feeding check, the animals in the world in iteration order, whether
   * feeding the chosen adult succeeded, and the two answers of the weapon
   * check made during slaughter.
   */
  datatype Observation = Observation(
    building: Option<Shepherd>,
    level: int,
    world: World,
    freePaddock: Option<Pos>,
    walking: bool,
    food: FoodCheck,
    pigs: seq<Pig>,
    fedAdult: bool,
    weaponCheck: bool,
    weaponRecheck: bool)

  /** What a handler hands back: the next state, the hut, and the delay it set, or the fault it threw. */
  datatype Step =
    | Next(state: AIState, building: Option<Shepherd>, delay: Option<nat>)
    | Threw(building: Option<Shepherd>, fault: Fault)

  /** The handlers of the shepherd AI. */
  datatype Handler = ToStartWorking | StartWorkingAtOwnBuilding | PrepareForFeeding | Feed | Slaughter

  /** The shepherd's registration table. */
  const Targets: seq<(AIState, Handler)> := [
    (Idle, ToStartWorking),
    (StartWorking, StartWorkingAtOwnBuilding),
    (Preparing, PrepareForFeeding),
    (ShepherdFeed, Feed),
    (ShepherdSlaughter, Slaughter)
  ]

  /** `shuffle` returns a permutation of whatever list it is given. */
  ghost predicate IsShuffle(shuffle: seq<Pos> -> seq<Pos>) {
    forall s :: multiset(shuffle(s)) == multiset(s)
  }

  /** The shepherd registers each of its five states exactly once, and nothing else. */
  lemma TargetsAreUnambiguous()
    ensures Unambiguous(Targets)
    ensures forall s :: HandlerFor(Targets, s).Some? <==> s != DeliverymanFindNewWork
  {
  }

  /** The delay between actions: shorter for higher levels, never below the smallest delay. */
  function LevelDelay(level: int): (r: int)
    ensures r >= SmallestDelay
    ensures r >= StandardDelay - level
    ensures r == SmallestDelay || r == StandardDelay - level
  {
    if StandardDelay - level > SmallestDelay then StandardDelay - level else SmallestDelay
  }

  /** Higher levels never wait longer. */
  lemma LevelDelayNonIncreasing(low: int, high: int)
    requires low <= high
    ensures LevelDelay(high) <= LevelDelay(low)
  {
  }

  /**
   * The "dump the inventory" request: answered once when the flag is set,
   * clearing it. Returns the answer and the new flag.
   */
  function WantInventoryDumped(shouldDump: bool): (r: (bool, bool))
    ensures r.0 == shouldDump
    ensures !r.1
  {
    if shouldDump then (true, false) else (false, false)
  }

  /** Walking to the hut keeps the current state; once there, preparation starts. */
  function StartWorkingAt(current: AIState, walking: bool): (r: AIState)
    ensures walking ==> r == current
    ensures !walking ==> r == Preparing
  {
    if walking then current else Preparing
  }

  /**
   * Asks the colony for a free paddock when automatic assignment is on and
   * the hut holds fewer paddocks than its level; a paddock handed out is
   * appended to the list.
   */
  function Replenish(b: Shepherd, level: int, free: Option<Pos>): (r: Shepherd)
    ensures r.pool == b.pool && r.current == b.current
    ensures r.assignManually == b.assignManually && r.worker == b.worker
    ensures multiset(r.fields) == multiset(b.fields) +
      (if |b.fields| < level && !b.assignManually && free.Some? then multiset{free.value} else multiset{})
    ensures |r.fields| <= |b.fields| + 1
    ensures b.assignManually || |b.fields| >= level ==> r == b
  {
    if |b.fields| < level && !b.assignManually && free.Some? then b.(fields := b.fields + [free.value]) else b
  }

  /**
   * The tail of the preparation handler, once the hut holds paddocks: pick a
   * paddock when none is current (resetting the cycle when none needs work),
   * then go feeding when the current paddock needs work and food is ready,
   * dropping it when it no longer needs work.
   */
  function ChooseAndCheck(b: Shepherd, obs: Observation, shuffle: seq<Pos> -> seq<Pos>): (r: Step)
    requires IsShuffle(shuffle)
    ensures r.Next? && r.building.Some? && r.delay.None?
    ensures multiset(r.building.value.fields) == multiset(b.fields)
    ensures r.state == Idle <==> b.current.None? && forall x :: x in b.fields ==> !NeedsWork(b.pool, x)
    ensures r.state in {Idle, Preparing, ShepherdFeed}
    ensures b.current.Some? && NeedsWork(b.pool, b.current.value) ==>
      r.state == (if obs.food == FoodReady && !obs.walking then ShepherdFeed else Preparing)
    ensures b.current.Some? && NeedsWork(b.pool, b.current.value) && obs.food == NoFoodSet ==>
      r.building.value.current.None?
    ensures r.state != Idle ==>
      (r.state == ShepherdFeed <==>
         obs.food == FoodReady && !obs.walking && (b.current.None? || NeedsWork(b.pool, b.current.value)))
    ensures r.state == ShepherdFeed ==>
      r.building.value.current.Some? && NeedsWork(r.building.value.pool, r.building.value.current.value)
  {
    var b3 :=
      if b.current.Some? then b
      else GetFieldToWorkOn(b, shuffle(b.fields)).after;
    if b.current.None? && GetFieldToWorkOn(b, shuffle(b.fields)).field.None? then
      Next(Idle, Some(ResetFields(b3)), None)
    else
      var cur := b3.current.value;
      if NeedsWork(b3.pool, cur) then
        match obs.food
        case NoFoodSet => Next(Preparing, Some(b3.(current := None)), None)
        case FoodMissing => Next(Preparing, Some(b3), None)
        case FoodReady => Next(if obs.walking then Preparing else ShepherdFeed, Some(b3), None)
      else Next(Preparing, Some(b3.(current := None)), None)
  }

  /**
   * The preparation handler: without a hut of level one or more it retries;
   * otherwise it reconciles the list with the world, tops it up, waits when
   * the list is empty, and then chooses and checks a paddock.
   */
  function PrepareForFeedingStep(obs: Observation, shuffle: seq<Pos> -> seq<Pos>): (r: Step)
    requires IsShuffle(shuffle)
    ensures obs.building.None? || obs.level < 1 ==> r == Next(Preparing, obs.building, None)
    ensures r.Next? ==> r.delay.None? && r.building.Some? == obs.building.Some?
    ensures r.Next? ==> r.state in {Idle, Preparing, ShepherdFeed}
    ensures r.Next? && r.state == ShepherdFeed ==> obs.food == FoodReady && !obs.walking
    ensures r.Next? && r.state == ShepherdFeed ==>
      r.building.value.current.Some? && NeedsWork(r.building.value.pool, r.building.value.current.value)
  {
    match obs.building
    case None => Next(Preparing, None, None)
    case Some(b) =>
      if obs.level < 1 then Next(Preparing, obs.building, None)
      else
        var synced := SyncWithColony(b, obs.world);
        if synced.thrown.Some? then Threw(Some(synced.after), synced.thrown.value)
        else
          var b2 := Replenish(synced.after, obs.level, obs.freePaddock);
          if HasNoFields(b2) then Next(Preparing, Some(b2), None)
          else ChooseAndCheck(b2, obs, shuffle)
  }

  /** The hut as it stands after reconciliation and top-up in a preparation pass. */
  function Prepared(b: Shepherd, obs: Observation): Shepherd {
    Replenish(SyncWithColony(b, obs.world).after, obs.level, obs.freePaddock)
  }

  /**
   * One preparation pass adds at most one paddock, and only when automatic
   * assignment is on and the reconciled list is shorter than the hut's level.
   */
  lemma PrepareAddsAtMostOnePaddock(b: Shepherd, obs: Observation, shuffle: seq<Pos> -> seq<Pos>)
    requires IsShuffle(shuffle)
    requires obs.building == Some(b) && obs.level >= 1
    requires SyncWithColony(b, obs.world).thrown.None?
    ensures
      var s := SyncWithColony(b, obs.world).after;
      var r := PrepareForFeedingStep(obs, shuffle);
      && r.Next?
      && multiset(r.building.value.fields) == multiset(s.fields) +
           (if |s.fields| < obs.level && !s.assignManually && obs.freePaddock.Some?
            then multiset{obs.freePaddock.value} else multiset{})
      && |r.building.value.fields| <= |b.fields| + 1
  {
    var s := SyncWithColony(b, obs.world).after;
    var b2 := Replenish(s, obs.level, obs.freePaddock);
    assert |s.fields| <= |b.fields|;
    var r := PrepareForFeedingStep(obs, shuffle);
    assert |r.building.value.fields| == |multiset(r.building.value.fields)|;
    assert |b2.fields| == |multiset(b2.fields)|;
  }

  /** With no paddock after reconciliation and top-up, the shepherd keeps preparing. */
  lemma PrepareWithoutFieldsWaits(b: Shepherd, obs: Observation, shuffle: seq<Pos> -> seq<Pos>)
    requires IsShuffle(shuffle)
    requires obs.building == Some(b) && obs.level >= 1
    requires SyncWithColony(b, obs.world).thrown.None?
    requires HasNoFields(Prepared(b, obs))
    ensures PrepareForFeedingStep(obs, shuffle) == Next(Preparing, Some(Prepared(b, obs)), None)
  {
  }

  /**
   * The cycle ends exactly when no paddock is current and none needs work:
   * the shepherd goes idle and every paddock needs work again.
   */
  lemma PrepareResetsFinishedCycle(b: Shepherd, obs: Observation, shuffle: seq<Pos> -> seq<Pos>)
    requires IsShuffle(shuffle)
    requires obs.building == Some(b) && obs.level >= 1
    requires SyncWithColony(b, obs.world).thrown.None?
    requires Valid(b)
    ensures
      var p := Prepared(b, obs);
      var r := PrepareForFeedingStep(obs, shuffle);
      && (r.Next? && r.state == Idle <==>
            !HasNoFields(p) && p.current.None? && forall x :: x in p.fields ==> !NeedsWork(p.pool, x))
      && (r.Next? && r.state == Idle && Valid(p) ==>
            forall x :: x in r.building.value.fields ==> NeedsWork(r.building.value.pool, x))
  {
    var p := Prepared(b, obs);
    var r := PrepareForFeedingStep(obs, shuffle);
    if r.Next? && r.state == Idle && Valid(p) {
      var picked := GetFieldToWorkOn(p, shuffle(p.fields)).after;
      assert r.building == Some(ResetFields(picked));
      assert Valid(picked);
    }
  }

  /**
   * A current paddock that no longer needs work is dropped and preparation
   * starts over.
   */
  lemma PrepareDropsFinishedPaddock(b: Shepherd, obs: Observation, shuffle: seq<Pos> -> seq<Pos>)
    requires IsShuffle(shuffle)
    requires obs.building == Some(b) && obs.level >= 1
    requires SyncWithColony(b, obs.world).thrown.None?
    requires !HasNoFields(Prepared(b, obs))
    requires Prepared(b, obs).current.Some? && !NeedsWork(Prepared(b, obs).pool, Prepared(b, obs).current.value)
    ensures PrepareForFeedingStep(obs, shuffle) == Next(Preparing, Some(Prepared(b, obs).(current := None)), None)
  {
  }

  /**
   * A current paddock that still needs work hands over to feeding once the
   * food is ready and the shepherd has arrived; while walking, or without the
   * food at hand, preparation goes on, and with no food set the paddock stops
   * being current.
   */
  lemma PrepareGoesFeeding(b: Shepherd, obs: Observation, shuffle: seq<Pos> -> seq<Pos>)
    requires IsShuffle(shuffle)
    requires obs.building == Some(b) && obs.level >= 1
    requires SyncWithColony(b, obs.world).thrown.None?
    requires !HasNoFields(Prepared(b, obs))
    requires Prepared(b, obs).current.Some? && NeedsWork(Prepared(b, obs).pool, Prepared(b, obs).current.value)
    ensures PrepareForFeedingStep(obs, shuffle).Next?
    ensures PrepareForFeedingStep(obs, shuffle).state ==
      (if obs.food == FoodReady && !obs.walking then ShepherdFeed else Preparing)
    ensures obs.food == NoFoodSet ==> PrepareForFeedingStep(obs, shuffle).building.value.current.None?
  {
  }

  /** An animal the shepherd may feed or slaughter: near the paddock, grown up and not in love. */
  predicate IsCandidate(p: Pig) {
    p.inRange && !p.inLove && !p.isChild
  }

  /** The number of animals near the paddock. */
  function InRangeCount(pigs: seq<Pig>): (r: nat)
    ensures r <= |pigs|
    ensures r == 0 <==> forall j :: 0 <= j < |pigs| ==> !pigs[j].inRange
  {
    if |pigs| == 0 then 0
    else InRangeCount(pigs[..|pigs| - 1]) + (if pigs[|pigs| - 1].inRange then 1 else 0)
  }

  /** The number of candidates. */
  function CandidateCount(pigs: seq<Pig>): (r: nat)
    ensures r <= |pigs|
    ensures r == 0 <==> forall j :: 0 <= j < |pigs| ==> !IsCandidate(pigs[j])
  {
    if |pigs| == 0 then 0
    else CandidateCount(pigs[..|pigs| - 1]) + (if IsCandidate(pigs[|pigs| - 1]) then 1 else 0)
  }

  /** The index of the first candidate. */
  function FirstCandidate(pigs: seq<Pig>): (r: Option<nat>)
    ensures r.None? <==> forall j :: 0 <= j < |pigs| ==> !IsCandidate(pigs[j])
    ensures r.Some? ==> r.value < |pigs| && IsCandidate(pigs[r.value])
    ensures r.Some? ==> forall j :: 0 <= j < r.value ==> !IsCandidate(pigs[j])
  {
    if |pigs| == 0 then None
    else
      var init := pigs[..|pigs| - 1];
      match FirstCandidate(init)
      case Some(j) => Some(j)
      case None => if IsCandidate(pigs[|pigs| - 1]) then Some(|pigs| - 1) else None
  }

  /** The candidate at `j` is met when `MaxEntities` or more animals near the paddock have been counted. */
  predicate Overflowing(pigs: seq<Pig>, j: int)
    requires 0 <= j < |pigs|
  {
    IsCandidate(pigs[j]) && InRangeCount(pigs[..j + 1]) >= MaxEntities
  }

  /** What the feeding scan decides: slaughter, feed the candidate at an index, or nothing to feed. */
  datatype FeedVerdict = TooMany | FeedAt(index: nat) | NothingToFeed

  /**
   * The feeding scan from index `i` on, with `matching` animals near the
   * paddock counted so far and the first candidate `found` so far.
   */
  function FeedScanFrom(pigs: seq<Pig>, i: nat, matching: nat, found: Option<nat>): (r: FeedVerdict)
    requires i <= |pigs|
    requires matching == InRangeCount(pigs[..i])
    requires found == FirstCandidate(pigs[..i])
    ensures r.TooMany? <==> exists j :: i <= j < |pigs| && Overflowing(pigs, j)
    ensures r.FeedAt? ==> Some(r.index) == FirstCandidate(pigs)
    ensures r.NothingToFeed? ==> FirstCandidate(pigs).None?
    ensures !r.TooMany? ==> (r.FeedAt? <==> FirstCandidate(pigs).Some?)
    decreases |pigs| - i
  {
    if i == |pigs| then
      assert pigs[..i] == pigs;
      if found.Some? then FeedAt(found.value) else NothingToFeed
    else
      assert pigs[..i + 1][..i] == pigs[..i];
      var p := pigs[i];
      var matching' := if p.inRange then matching + 1 else matching;
      var found' := if found.None? && IsCandidate(p) then Some(i) else found;
      if IsCandidate(p) && matching' >= MaxEntities then
        assert Overflowing(pigs, i);
        TooMany
      else
        FeedScanFrom(pigs, i + 1, matching', found')
  }

  /**
   * The verdict of the feeding scan: slaughter as soon as a candidate is met
   * with ten or more animals near the paddock counted; otherwise feed the
   * first candidate, if any.
   */
  function FeedVerdictOf(pigs: seq<Pig>): (r: FeedVerdict)
    ensures r.TooMany? <==> exists j :: 0 <= j < |pigs| && Overflowing(pigs, j)
    ensures !r.TooMany? ==> (r.FeedAt? <==> FirstCandidate(pigs).Some?)
    ensures r.FeedAt? ==> Some(r.index) == FirstCandidate(pigs)
  {
    assert pigs[..0] == [];
    FeedScanFrom(pigs, 0, 0, None)
  }

  /** The hut is known and has a paddock to work on. */
  predicate HasCurrent(obs: Observation) {
    obs.building.Some? && obs.building.value.current.Some?
  }

  /**
   * The feeding handler: without a hut or a current paddock it prepares again;
   * too many animals switch to slaughter; a candidate is walked to and fed,
   * which sets the standard delay; with no candidate it prepares again.
   */
  function FeedStep(obs: Observation): (r: Step)
    ensures r.Next? && r.building == obs.building
    ensures obs.building.None? || obs.building.value.current.None? ==> r.state == Preparing
    ensures r.state == ShepherdSlaughter ==> exists j :: 0 <= j < |obs.pigs| && Overflowing(obs.pigs, j)
    ensures r.delay.Some? ==> r.delay.value == StandardDelay && r.state == ShepherdFeed
    ensures HasCurrent(obs) ==>
      (r.delay.Some? <==> FeedVerdictOf(obs.pigs).FeedAt? && !obs.walking && obs.fedAdult)
    ensures HasCurrent(obs) && FeedVerdictOf(obs.pigs).TooMany? ==> r.state == ShepherdSlaughter
    ensures HasCurrent(obs) && FeedVerdictOf(obs.pigs).NothingToFeed? ==> r.state == Preparing
    ensures HasCurrent(obs) && FeedVerdictOf(obs.pigs).FeedAt? && obs.walking ==> r.state == ShepherdFeed
    ensures HasCurrent(obs) && FeedVerdictOf(obs.pigs).FeedAt? && !obs.walking && !obs.fedAdult ==> r.state == Preparing
  {
    if !HasCurrent(obs) then Next(Preparing, obs.building, None)
    else
      match FeedVerdictOf(obs.pigs)
      case TooMany => Next(ShepherdSlaughter, obs.building, None)
      case FeedAt(_) =>
        if obs.walking then Next(ShepherdFeed, obs.building, None)
        else if obs.fedAdult then Next(ShepherdFeed, obs.building, Some(StandardDelay))
        else Next(Preparing, obs.building, None)
      case NothingToFeed => Next(Preparing, obs.building, None)
  }

  /**
   * The slaughter handler: it prepares again without a hut, when the weapon
   * check answers true, or without a current paddock; it goes on only when
   * more than five candidates stand near the paddock, walks to the first, and
   * strikes when the weapon check, asked again, answers true.
   */
  function SlaughterStep(obs: Observation): (r: Step)
    ensures r.Next? && r.building == obs.building && r.delay.None?
    ensures r.state == ShepherdSlaughter ==> CandidateCount(obs.pigs) > MinEntities
    ensures r.state == ShepherdSlaughter ==> obs.building.Some? && !obs.weaponCheck
    ensures r.state in {Preparing, ShepherdSlaughter}
    ensures HasCurrent(obs) && !obs.weaponCheck && (obs.walking || obs.weaponRecheck) ==>
      (r.state == ShepherdSlaughter <==> CandidateCount(obs.pigs) > MinEntities)
  {
    CandidatesHaveFirst(obs.pigs);
    if obs.building.None? || obs.weaponCheck || obs.building.value.current.None? then
      Next(Preparing, obs.building, None)
    else if CandidateCount(obs.pigs) > MinEntities && FirstCandidate(obs.pigs).Some? then
      if obs.walking then Next(ShepherdSlaughter, obs.building, None)
      else if obs.weaponRecheck then Next(ShepherdSlaughter, obs.building, None)
      else Next(Preparing, obs.building, None)
    else Next(Preparing, obs.building, None)
  }

  /** More than five candidates always include a first one. */
  lemma CandidatesHaveFirst(pigs: seq<Pig>)
    ensures CandidateCount(pigs) > 0 ==> FirstCandidate(pigs).Some?
  {
    if |pigs| > 0 {
      CandidatesHaveFirst(pigs[..|pigs| - 1]);
    }
  }

  /**
   * Once the shepherd is at the animals, the strike happens only when the two
   * weapon checks of the same pass disagree: with a stable answer the handler
   * never stays in slaughter except while walking.
   */
  lemma SlaughterNeedsUnstableWeaponCheck(obs: Observation)
    requires !obs.walking
    requires obs.weaponCheck == obs.weaponRecheck
    ensures SlaughterStep(obs).state == Preparing
  {
  }

  /**
   * With a hut, a current paddock and a passing weapon check, the shepherd
   * keeps walking towards the animals for slaughter exactly when more than
   * five candidates are near the paddock.
   */
  lemma SlaughterThreshold(obs: Observation)
    requires obs.building.Some? && obs.building.value.current.Some? && !obs.weaponCheck && obs.walking
    ensures SlaughterStep(obs).state == ShepherdSlaughter <==> CandidateCount(obs.pigs) > MinEntities
  {
    CandidatesHaveFirst(obs.pigs);
  }

  /**
   * One tick of the shepherd: the handler registered for the current state
   * runs; an unregistered state runs nothing.
   */
  function ShepherdStep(state: AIState, obs: Observation, shuffle: seq<Pos> -> seq<Pos>): (r: Option<Step>)
    requires IsShuffle(shuffle)
    ensures r.None? <==> HandlerFor(Targets, state).None?
    ensures state == Idle ==> r == Some(Next(StartWorking, obs.building, None))
    ensures state == StartWorking ==>
      r == Some(Next(if obs.walking then StartWorking else Preparing, obs.building, None))
    ensures state == Preparing ==> r == Some(PrepareForFeedingStep(obs, shuffle))
    ensures state == ShepherdFeed ==> r == Some(FeedStep(obs))
    ensures state == ShepherdSlaughter ==> r == Some(SlaughterStep(obs))
  {
    match HandlerFor(Targets, state)
    case None => None
    case Some(h) =>
      match h
      case ToStartWorking => Some(Next(StartWorking, obs.building, None))
      case StartWorkingAtOwnBuilding => Some(Next(StartWorkingAt(state, obs.walking), obs.building, None))
      case PrepareForFeeding => Some(PrepareForFeedingStep(obs, shuffle))
      case Feed => Some(FeedStep(obs))
      case Slaughter => Some(SlaughterStep(obs))
  }
}

=== FILE: shepherd_building.dfy ===
/**
 * The shepherd's hut: which paddocks of the colony pool it works, which one it
 * works right now, whether paddocks are handed to it automatically, and the
 * name of its worker.
 *
 * The model takes the hut's field list to hold the pool's own paddock objects,
 * so it keeps every paddock attribute in the pool and lets the list name
 * paddocks by position. Where the Java code dereferences a null (a position that is not a
 * pool paddock, a hut without a worker, a position without a paddock tile
 * entity) the operation stops half way; an `Outcome` carries the state reached
 * at that point together with the fault.
 */
module ShepherdBuilding {
  import opened Wrappers
  import opened Paddocks

  /** The null the Java code dereferences when an operation stops early. */
  datatype Fault = NoSuchPaddock | NoWorker | NoTileEntity

  /** The hut's state, together with the colony pool its list points into. */
  datatype Shepherd = Shepherd(
    pool: Pool,
    fields: seq<Pos>,
    current: Option<Pos>,
    assignManually: bool,
    worker: Option<string>)

  /** The state an operation leaves behind, and the fault that stopped it, if any. */
  datatype Outcome = Outcome(after: Shepherd, thrown: Option<Fault>)

  /** The result of picking a paddock to work on. */
  datatype Pick = Pick(after: Shepherd, field: Option<Pos>)

  /** Every position the hut refers to is a paddock of the pool. */
  predicate Valid(b: Shepherd) {
    && (forall x :: x in b.fields ==> x in b.pool)
    && (b.current.Some? ==> b.current.value in b.pool)
  }

  /**
   * The hut/pool agreement that assigning a paddock establishes: the hut has
   * a worker and every listed paddock is taken by that worker.
   */
  predicate Consistent(b: Shepherd) {
    && b.worker.Some?
    && forall x :: x in b.fields ==> x in b.pool && b.pool[x].taken && b.pool[x].owner == b.worker.value
  }

  /** No paddock is listed twice. */
  predicate NoDuplicates(s: seq<Pos>) {
    forall i, j :: 0 <= i < j < |s| ==> s[i] != s[j]
  }

  /** True when the hut holds no paddock. */
  predicate HasNoFields(b: Shepherd) {
    |b.fields| == 0
  }

  /** The positions of `s` that hold a paddock tile entity, in the order they are listed. */
  function Surviving(s: seq<Pos>, world: World): (r: seq<Pos>)
    ensures forall x :: x in r <==> x in s && x in world
    ensures |r| <= |s|
  {
    if |s| == 0 then []
    else if s[0] in world then [s[0]] + Surviving(s[1..], world)
    else Surviving(s[1..], world)
  }

  /** The assignment-mode flag as its setter leaves it. */
  function SetAssignManually(b: Shepherd, flag: bool): (r: Shepherd)
    ensures r.assignManually == flag
    ensures r.pool == b.pool && r.fields == b.fields && r.current == b.current && r.worker == b.worker
  {
    b.(assignManually := flag)
  }

  /**
   * Hands the pool paddock at `pos` to this hut: marks it taken, records the
   * worker's name as owner and appends it to the list. No check is made for a
   * previous owner or for the position already being listed.
   */
  function AssignField(b: Shepherd, pos: Pos): (r: Outcome)
    ensures pos !in b.pool ==> r == Outcome(b, Some(NoSuchPaddock))
    ensures pos in b.pool && b.worker.None? ==>
      && r.thrown == Some(NoWorker)
      && r.after == b.(pool := b.pool[pos := b.pool[pos].(taken := true)])
    ensures pos in b.pool && b.worker.Some? ==>
      && r.thrown.None?
      && r.after.fields == b.fields + [pos]
      && r.after.pool.Keys == b.pool.Keys
      && r.after.pool[pos] == Paddock(true, b.worker.value, b.pool[pos].needsWork)
      && (forall k :: k in b.pool && k != pos ==> r.after.pool[k] == b.pool[k])
      && r.after.current == b.current
      && r.after.assignManually == b.assignManually
      && r.after.worker == b.worker
    ensures Valid(b) ==> Valid(r.after)
    ensures Consistent(b) ==> Consistent(r.after)
  {
    if pos !in b.pool then Outcome(b, Some(NoSuchPaddock))
    else
      var marked := b.pool[pos := b.pool[pos].(taken := true)];
      match b.worker
      case None => Outcome(b.(pool := marked), Some(NoWorker))
      case Some(name) =>
        Outcome(b.(pool := marked[pos := marked[pos].(owner := name)], fields := b.fields + [pos]), None)
  }

  /**
   * Releases the paddock at `pos`: when the list holds a paddock there, the
   * first such entry is removed and the pool paddock becomes untaken with no
   * owner; otherwise nothing changes.
   */
  function FreeField(b: Shepherd, pos: Pos, world: World): (r: Outcome)
    ensures pos !in b.fields ==> r == Outcome(b, None)
    ensures pos in b.fields ==>
      && r.after.fields == RemoveFirst(b.fields, pos)
      && r.after.current == b.current
      && r.after.assignManually == b.assignManually
      && r.after.worker == b.worker
    ensures pos in b.fields && pos !in b.pool ==>
      r == Outcome(b.(fields := RemoveFirst(b.fields, pos)), Some(NoSuchPaddock))
    ensures pos in b.fields && pos in b.pool ==>
      && r.after.pool.Keys == b.pool.Keys
      && r.after.pool[pos] == Paddock(false, "", b.pool[pos].needsWork)
      && (forall k :: k in b.pool && k != pos ==> r.after.pool[k] == b.pool[k])
      && (r.thrown.None? <==> pos in world)
      && (r.thrown.Some? ==> r.thrown == Some(NoTileEntity))
    ensures Valid(b) ==> Valid(r.after)
  {
    if pos !in b.fields then Outcome(b, None)
    else
      var removed := b.(fields := RemoveFirst(b.fields, pos));
      if pos !in b.pool then Outcome(removed, Some(NoSuchPaddock))
      else
        var freed := removed.(pool := b.pool[pos := b.pool[pos].(taken := false, owner := "")]);
        if pos in world then Outcome(freed, None) else Outcome(freed, Some(NoTileEntity))
  }

  /**
   * The first position of `s`, in list order, whose pool paddock needs work.
   */
  function FirstNeedingWork(pool: Pool, s: seq<Pos>): (r: Option<Pos>)
    ensures r.None? <==> forall x :: x in s ==> !NeedsWork(pool, x)
    ensures r.Some? ==> r.value in s && NeedsWork(pool, r.value)
    ensures r.Some? ==> forall i :: 0 <= i < IndexOf(s, r.value) ==> !NeedsWork(pool, s[i])
  {
    if |s| == 0 then None
    else if NeedsWork(pool, s[0]) then Some(s[0])
    else
      var r := FirstNeedingWork(pool, s[1..]);
      assert r.Some? ==> IndexOf(s, r.value) == IndexOf(s[1..], r.value) + 1;
      r
  }

  /**
   * Picks a paddock to work on: the list is shuffled into `shuffled` (any
   * permutation of it), and the first shuffled paddock that needs work becomes
   * the current one. When none needs work the current paddock is kept.
   */
  function GetFieldToWorkOn(b: Shepherd, shuffled: seq<Pos>): (r: Pick)
    requires multiset(shuffled) == multiset(b.fields)
    ensures r.after.fields == shuffled
    ensures multiset(r.after.fields) == multiset(b.fields)
    ensures r.after.pool == b.pool
    ensures r.after.assignManually == b.assignManually && r.after.worker == b.worker
    ensures r.field.None? <==> forall x :: x in b.fields ==> !NeedsWork(b.pool, x)
    ensures r.field.Some? ==> r.field.value in b.fields && NeedsWork(b.pool, r.field.value)
    ensures r.field.Some? ==> r.after.current == r.field
    ensures r.field.None? ==> r.after.current == b.current
    ensures Valid(b) ==> Valid(r.after)
  {
    assert forall x :: x in shuffled <==> x in b.fields by {
      forall x ensures x in shuffled <==> x in b.fields {
        assert x in shuffled <==> x in multiset(shuffled);
        assert x in b.fields <==> x in multiset(b.fields);
      }
    }
    var f := FirstNeedingWork(b.pool, shuffled);
    var shuffledState := b.(fields := shuffled);
    if f.Some? then Pick(shuffledState.(current := f), f) else Pick(shuffledState, None)
  }

  /**
   * Starts a new cycle: every listed paddock needs work again. (The building
   * also recomputes each paddock's extent from the world, which is not part of
   * this model.)
   */
  function ResetFields(b: Shepherd): (r: Shepherd)
    ensures r.fields == b.fields && r.current == b.current
    ensures r.assignManually == b.assignManually && r.worker == b.worker
    ensures r.pool.Keys == b.pool.Keys
    ensures forall k :: k in b.pool && k in b.fields ==> r.pool[k] == b.pool[k].(needsWork := true)
    ensures forall k :: k in b.pool && k !in b.fields ==> r.pool[k] == b.pool[k]
    ensures Valid(b) ==> Valid(r)
  {
    b.(pool := map k | k in b.pool :: if k in b.fields then b.pool[k].(needsWork := true) else b.pool[k])
  }

  /**
   * The hut is given a new worker named `name`: every listed paddock records
   * that name as its owner; `taken` is left as it was.
   */
  function CreateJob(b: Shepherd, name: string): (r: Shepherd)
    ensures r.fields == b.fields && r.current == b.current
    ensures r.assignManually == b.assignManually && r.worker == b.worker
    ensures r.pool.Keys == b.pool.Keys
    ensures forall k :: k in b.pool && k in b.fields ==> r.pool[k] == b.pool[k].(owner := name)
    ensures forall k :: k in b.pool && k !in b.fields ==> r.pool[k] == b.pool[k]
    ensures Valid(b) ==> Valid(r)
  {
    b.(pool := map k | k in b.pool :: if k in b.fields then b.pool[k].(owner := name) else b.pool[k])
  }

  /**
   * One step of the reconciliation loop over the snapshot `rest` of the list:
   * a paddock whose tile entity is gone is removed from the list (and stops
   * being current); one still standing has its tile entity renamed after the
   * worker, which needs a worker.
   */
  function SyncLoop(b: Shepherd, kept: seq<Pos>, rest: seq<Pos>, world: World): (r: Outcome)
    requires b.fields == kept + rest
    requires forall x :: x in kept ==> x in world
    ensures r.after.pool == b.pool
    ensures r.after.assignManually == b.assignManually && r.after.worker == b.worker
    ensures r.thrown.Some? <==> b.worker.None? && |Surviving(rest, world)| > 0
    ensures r.thrown.Some? ==> r.thrown == Some(NoWorker)
    ensures r.thrown.None? ==> r.after.fields == kept + Surviving(rest, world)
    ensures r.thrown.None? ==>
      r.after.current == (if b.current.Some? && b.current.value in rest && b.current.value !in world then None else b.current)
    decreases |rest|
  {
    if |rest| == 0 then Outcome(b, None)
    else
      var p := rest[0];
      if p !in world then
        RemoveFirstPastKept(kept, rest, world);
        assert Surviving(rest, world) == Surviving(rest[1..], world);
        var b' := b.(fields := RemoveFirst(b.fields, p), current := if b.current == Some(p) then None else b.current);
        SyncLoop(b', kept, rest[1..], world)
      else if b.worker.None? then Outcome(b, Some(NoWorker))
      else
        assert b.fields == (kept + [p]) + rest[1..];
        var later := Surviving(rest[1..], world);
        assert Surviving(rest, world) == [p] + later;
        assert (kept + [p]) + later == kept + Surviving(rest, world);
        SyncLoop(b, kept + [p], rest[1..], world)
  }

  /**
   * Even when it stops early, the reconciliation loop only ever removes
   * positions from the list, so a hut that referred only to pool paddocks
   * still does.
   */
  lemma {:induction false} SyncLoopOnlyRemoves(b: Shepherd, kept: seq<Pos>, rest: seq<Pos>, world: World)
    requires b.fields == kept + rest
    requires forall x :: x in kept ==> x in world
    ensures forall x :: x in SyncLoop(b, kept, rest, world).after.fields ==> x in b.fields
    ensures Valid(b) ==> Valid(SyncLoop(b, kept, rest, world).after)
    decreases |rest|
  {
    if |rest| > 0 {
      var p := rest[0];
      if p !in world {
        RemoveFirstPastKept(kept, rest, world);
        RemoveFirstShrinks(b.fields, p);
        var b' := b.(fields := RemoveFirst(b.fields, p), current := if b.current == Some(p) then None else b.current);
        SyncLoopOnlyRemoves(b', kept, rest[1..], world);
      } else if b.worker.Some? {
        assert b.fields == (kept + [p]) + rest[1..];
        SyncLoopOnlyRemoves(b, kept + [p], rest[1..], world);
      }
    }
  }

  /** Removing an occurrence never adds a position. */
  lemma RemoveFirstShrinks(s: seq<Pos>, x: Pos)
    ensures forall y :: y in RemoveFirst(s, x) ==> y in s
  {
    forall y | y in RemoveFirst(s, x)
      ensures y in s
    {
      assert y in multiset(RemoveFirst(s, x));
    }
  }

  /** Removing a position that lies past a prefix of surviving positions removes the head of the rest. */
  lemma RemoveFirstPastKept(kept: seq<Pos>, rest: seq<Pos>, world: World)
    requires |rest| > 0 && rest[0] !in world
    requires forall x :: x in kept ==> x in world
    ensures RemoveFirst(kept + rest, rest[0]) == kept + rest[1..]
  {
    var s := kept + rest;
    var i := IndexOf(s, rest[0]);
    assert s[|kept|] == rest[0];
    assert s[..i] == kept;
    assert s[i + 1..] == rest[1..];
  }

  /**
   * Reconciles the list with the world: keeps, in order, exactly the paddocks
   * whose tile entity still stands, clears the current paddock when it was one
   * of the removed ones, and never touches the pool.
   */
  function SyncWithColony(b: Shepherd, world: World): (r: Outcome)
    ensures r.after.pool == b.pool
    ensures r.after.assignManually == b.assignManually && r.after.worker == b.worker
    ensures r.thrown.Some? <==> b.worker.None? && exists x :: x in b.fields && x in world
    ensures r.thrown.None? ==> r.after.fields == Surviving(b.fields, world)
    ensures r.thrown.None? ==>
      r.after.current == (if b.current.Some? && b.current.value in b.fields && b.current.value !in world then None else b.current)
    ensures forall x :: x in r.after.fields ==> x in b.fields
    ensures Valid(b) ==> Valid(r.after)
  {
    if |b.fields| == 0 then Outcome(b, None)
    else
      var survivors := Surviving(b.fields, world);
      assert |survivors| > 0 ==> survivors[0] in survivors;
      SyncLoopOnlyRemoves(b, [], b.fields, world);
      SyncLoop(b, [], b.fields, world)
  }

  /**
   * One step of the teardown loop over `rest`: a listed pool paddock becomes
   * untaken with no owner, after which its tile entity is renamed, which
   * needs the tile entity to be there.
   */
  function DestroyLoop(b: Shepherd, rest: seq<Pos>, world: World): (r: Outcome)
    ensures r.after.fields == b.fields && r.after.current == b.current
    ensures r.after.assignManually == b.assignManually && r.after.worker == b.worker
    ensures r.after.pool.Keys == b.pool.Keys
    ensures forall k :: k in b.pool && k !in rest ==> r.after.pool[k] == b.pool[k]
    ensures forall k :: k in b.pool ==> r.after.pool[k].needsWork == b.pool[k].needsWork
    ensures r.thrown.Some? <==> exists x :: x in rest && x in b.pool && x !in world
    ensures r.thrown.Some? ==> r.thrown == Some(NoTileEntity)
    ensures r.thrown.None? ==> forall k :: k in b.pool && k in rest ==> IsFree(r.after.pool[k])
    decreases |rest|
  {
    if |rest| == 0 then Outcome(b, None)
    else
      var p := rest[0];
      if p !in b.pool then DestroyLoop(b, rest[1..], world)
      else
        var b' := b.(pool := b.pool[p := b.pool[p].(taken := false, owner := "")]);
        if p !in world then Outcome(b', Some(NoTileEntity))
        else DestroyLoop(b', rest[1..], world)
  }

  /**
   * Tearing the hut down releases every listed pool paddock; the list itself
   * is left as it is.
   */
  function OnDestroyed(b: Shepherd, world: World): (r: Outcome)
    ensures r.after.fields == b.fields && r.after.pool.Keys == b.pool.Keys
    ensures forall k :: k in b.pool && k !in b.fields ==> r.after.pool[k] == b.pool[k]
    ensures r.thrown.None? <==> forall x :: x in b.fields && x in b.pool ==> x in world
    ensures r.thrown.None? ==> forall k :: k in b.pool && k in b.fields ==> IsFree(r.after.pool[k])
    ensures Valid(b) ==> Valid(r.after)
  {
    DestroyLoop(b, b.fields, world)
  }

  lemma RemoveFirstOfAppended(s: seq<Pos>, x: Pos)
    requires x !in s
    ensures RemoveFirst(s + [x], x) == s
  {
    assert (s + [x])[..|s|] == s;
  }

  /** Freeing a listed pool paddock writes exactly that paddock, released, back to the pool. */
  lemma FreeFieldReleases(b: Shepherd, pos: Pos, world: World)
    requires pos in b.fields && pos in b.pool
    ensures FreeField(b, pos, world).after.pool == b.pool[pos := b.pool[pos].(taken := false, owner := "")]
  {
  }

  /**
   * Assigning a free, unlisted paddock and then freeing it restores the hut
   * and the pool exactly; the free step completes normally when the
   * paddock's tile entity stands.
   */
  lemma AssignThenFreeRestores(b: Shepherd, pos: Pos, world: World)
    requires pos in b.pool && IsFree(b.pool[pos]) && pos !in b.fields
    requires b.worker.Some?
    ensures AssignField(b, pos).thrown.None?
    ensures FreeField(AssignField(b, pos).after, pos, world).after == b
    ensures FreeField(AssignField(b, pos).after, pos, world).thrown.None? <==> pos in world
  {
    var before := b.pool[pos];
    var taken := Paddock(true, b.worker.value, before.needsWork);
    var a := AssignField(b, pos).after;
    assert a.pool == b.pool[pos := taken];
    RemoveFirstOfAppended(b.fields, pos);
    assert a.pool[pos].(taken := false, owner := "") == before;
    FreeFieldReleases(a, pos, world);
    UpdateTwice(b.pool, pos, taken, before);
    UpdateSame(b.pool, pos);
  }

  /** Removing a position from a duplicate-free list removes it entirely and keeps the list duplicate-free. */
  lemma RemoveFirstNoDuplicates(s: seq<Pos>, x: Pos)
    requires NoDuplicates(s)
    ensures x !in RemoveFirst(s, x)
    ensures NoDuplicates(RemoveFirst(s, x))
    ensures forall y :: y in RemoveFirst(s, x) ==> y in s
  {
    var r := RemoveFirst(s, x);
    if x in s {
      var i := IndexOf(s, x);
      forall j, k | 0 <= j < k < |r|
        ensures r[j] != r[k]
      {
        ElementAfterRemoval(s, i, j);
        ElementAfterRemoval(s, i, k);
      }
      forall j | 0 <= j < |r|
        ensures r[j] != x
      {
        ElementAfterRemoval(s, i, j);
      }
      forall y | y in r
        ensures y in s
      {
        assert y in multiset(r);
      }
    }
  }

  /** Where an element of a list with one index removed came from. */
  lemma ElementAfterRemoval(s: seq<Pos>, i: int, j: int)
    requires 0 <= i < |s| && 0 <= j < |s| - 1
    ensures (s[..i] + s[i + 1..])[j] == s[if j < i then j else j + 1]
  {
  }

  /**
   * Freeing keeps the hut/pool agreement when no paddock is listed twice.
   */
  lemma FreePreservesConsistency(b: Shepherd, pos: Pos, world: World)
    requires Consistent(b) && NoDuplicates(b.fields)
    ensures Consistent(FreeField(b, pos, world).after)
    ensures NoDuplicates(FreeField(b, pos, world).after.fields)
  {
    if pos in b.fields {
      RemoveFirstNoDuplicates(b.fields, pos);
      var a := FreeField(b, pos, world).after;
      forall x | x in a.fields
        ensures x in a.pool && a.pool[x].taken && a.pool[x].owner == a.worker.value
      {
        assert x != pos && x in b.fields;
      }
    }
  }

  /**
   * Without a duplicate check the agreement does not survive: assigning the
   * same paddock twice and freeing it once leaves it listed but untaken.
   */
  lemma DoubleAssignThenFreeBreaksConsistency()
    ensures
      var p := Pos(0, 0, 0);
      var b := Shepherd(map[p := Paddock(false, "", true)], [], None, false, Some("Alex"));
      var twice := AssignField(AssignField(b, p).after, p).after;
      && Consistent(twice)
      && !Consistent(FreeField(twice, p, {p}).after)
  {
    var p := Pos(0, 0, 0);
    var b := Shepherd(map[p := Paddock(false, "", true)], [], None, false, Some("Alex"));
    var once := AssignField(b, p).after;
    var twice := AssignField(once, p).after;
    assert twice.fields == [p, p];
    var freed := FreeField(twice, p, {p}).after;
    assert freed.fields == [p];
    assert !freed.pool[p].taken;
  }

  /**
   * The full cycle: once the list is reset, a non-empty list of pool
   * paddocks always yields a paddock to work on, whatever the shuffle.
   */
  lemma ResetThenPickFinds(b: Shepherd, shuffled: seq<Pos>)
    requires Valid(b) && |b.fields| > 0
    requires multiset(shuffled) == multiset(b.fields)
    ensures GetFieldToWorkOn(ResetFields(b), shuffled).field.Some?
  {
    var r := ResetFields(b);
    assert NeedsWork(r.pool, r.fields[0]);
  }

  /**
   * Once a new worker named `name` takes over a hut whose listed paddocks are
   * all taken pool paddocks, the hut/pool agreement holds for that worker.
   */
  lemma CreateJobRestoresConsistency(b: Shepherd, name: string)
    requires forall x :: x in b.fields ==> x in b.pool && b.pool[x].taken
    ensures Consistent(CreateJob(b, name).(worker := Some(name)))
  {
  }
}

=== FILE: shepherd_view.dfy ===
/**
 * What the shepherd's hut sends to the client, and the client-side view that
 * reads it: the assignment mode, the paddocks the hut's worker may see, and
 * the worker's name. The view also keeps a counter of taken paddocks that the
 * client adjusts when the player toggles a paddock.
 */
module ShepherdView {
  import opened Wrappers
  import opened Paddocks
  import opened Wire
  import opened ShepherdBuilding

  /** The client-side view of the hut. */
  datatype View = View(assignManually: bool, fields: seq<PaddockView>, workerName: string, amountOfFields: int)

  /**
   * A pool paddock is shown to the hut when nobody holds it, or when the hut
   * has no worker, or when the hut's own worker holds it.
   */
  predicate Visible(p: Paddock, worker: Option<string>) {
    !p.taken || worker.None? || p.owner == worker.value
  }

  /**
   * The view entries, in the pool's iteration order `order`, of the paddocks
   * shown to the hut.
   */
  function Entries(pool: Pool, worker: Option<string>, order: seq<Pos>): (r: seq<PaddockView>)
    requires forall x :: x in order ==> x in pool
    ensures |r| <= |order|
    ensures forall v :: v in r ==> v.id in order && Visible(pool[v.id], worker)
                                   && v == PaddockView(v.id, pool[v.id].taken, pool[v.id].owner)
    ensures forall x :: x in order && Visible(pool[x], worker) ==> PaddockView(x, pool[x].taken, pool[x].owner) in r
  {
    if |order| == 0 then []
    else
      var last := order[|order| - 1];
      var init := Entries(pool, worker, order[..|order| - 1]);
      assert forall x :: x in order ==> x in order[..|order| - 1] || x == last;
      if Visible(pool[last], worker) then init + [PaddockView(last, pool[last].taken, pool[last].owner)] else init
  }

  /** The worker name the hut sends: the worker's name, or "" without one. */
  function WorkerName(b: Shepherd): string {
    b.worker.GetOr("")
  }

  /** Wraps view entries as buffer values. */
  function EncodeEntries(es: seq<PaddockView>): (r: seq<Field>)
    ensures |r| == |es|
    ensures forall i :: 0 <= i < |r| ==> r[i] == PaddockF(es[i])
  {
    if |es| == 0 then [] else [PaddockF(es[0])] + EncodeEntries(es[1..])
  }

  /** The buffer the hut writes: mode, count, the counted entries, worker name. */
  function ViewBytes(b: Shepherd, order: seq<Pos>): seq<Field>
    requires forall x :: x in order ==> x in b.pool
  {
    var es := Entries(b.pool, b.worker, order);
    [BoolF(b.assignManually), IntF(|es|)] + EncodeEntries(es) + [StrF(WorkerName(b))]
  }

  /** The number of positions of `order` whose paddocks are shown. */
  function VisibleCount(pool: Pool, worker: Option<string>, order: seq<Pos>): nat
    requires forall x :: x in order ==> x in pool
  {
    if |order| == 0 then 0
    else
      var last := order[|order| - 1];
      VisibleCount(pool, worker, order[..|order| - 1]) + (if Visible(pool[last], worker) then 1 else 0)
  }

  /** There is one entry per shown position. */
  lemma {:induction false} EntriesCountVisible(pool: Pool, worker: Option<string>, order: seq<Pos>)
    requires forall x :: x in order ==> x in pool
    ensures |Entries(pool, worker, order)| == VisibleCount(pool, worker, order)
  {
    if |order| > 0 {
      EntriesCountVisible(pool, worker, order[..|order| - 1]);
    }
  }

  /**
   * Counts, in one pass over the pool, the paddocks the hut will send; the
   * count is the number of entries the second pass writes.
   */
  method CountVisible(pool: Pool, worker: Option<string>, order: seq<Pos>) returns (size: nat)
    requires forall x :: x in order ==> x in pool
    ensures size == |Entries(pool, worker, order)|
  {
    size := 0;
    var i := 0;
    while i < |order|
      invariant 0 <= i <= |order|
      invariant size == VisibleCount(pool, worker, order[..i])
    {
      assert order[..i + 1][..i] == order[..i];
      if Visible(pool[order[i]], worker) {
        size := size + 1;
      }
      i := i + 1;
    }
    assert order[..|order|] == order;
    EntriesCountVisible(pool, worker, order);
  }

  /**
   * Writes the hut's view: the assignment mode, the number of paddocks shown,
   * exactly that many paddock entries, and the worker's name.
   */
  method SerializeToView(b: Shepherd, order: seq<Pos>) returns (out: seq<Field>)
    requires forall x :: x in order ==> x in b.pool
    ensures out == ViewBytes(b, order)
    ensures |out| >= 3 && out[1] == IntF(|out| - 3)
    ensures forall i :: 2 <= i < |out| - 1 ==> out[i].PaddockF? && Visible(b.pool[out[i].v.id], b.worker)
    ensures Enumerates(order, b.pool) ==> out[1] == IntF(|VisiblePaddocks(b.pool, b.worker)|)
  {
    var size := CountVisible(b.pool, b.worker, order);
    out := [BoolF(b.assignManually), IntF(size)] + EncodeEntries(Entries(b.pool, b.worker, order)) + [StrF(WorkerName(b))];
    ViewBytesShowsVisible(b, order);
    if Enumerates(order, b.pool) {
      CountIsAllVisiblePaddocks(b.pool, b.worker, order);
    }
  }

  /** Every entry of the hut's buffer is a paddock shown to the hut. */
  lemma ViewBytesShowsVisible(b: Shepherd, order: seq<Pos>)
    requires forall x :: x in order ==> x in b.pool
    ensures
      var out := ViewBytes(b, order);
      forall i :: 2 <= i < |out| - 1 ==> out[i].PaddockF? && Visible(b.pool[out[i].v.id], b.worker)
  {
    var es := Entries(b.pool, b.worker, order);
    var encoded := EncodeEntries(es);
    var out := ViewBytes(b, order);
    forall i | 2 <= i < |out| - 1
      ensures out[i].PaddockF? && Visible(b.pool[out[i].v.id], b.worker)
    {
      assert out[i] == encoded[i - 2] == PaddockF(es[i - 2]);
      assert es[i - 2] in es;
    }
  }

  /** The positions of `order` whose paddocks are shown to the hut. */
  function VisibleKeys(pool: Pool, worker: Option<string>, order: seq<Pos>): set<Pos>
    requires forall x :: x in order ==> x in pool
  {
    set x | x in order && Visible(pool[x], worker)
  }

  /**
   * When the iteration order lists each pool paddock once, the count is the
   * number of distinct paddocks shown to the hut.
   */
  lemma {:induction false} CountIsVisiblePaddocks(pool: Pool, worker: Option<string>, order: seq<Pos>)
    requires forall x :: x in order ==> x in pool
    requires NoDuplicates(order)
    ensures |Entries(pool, worker, order)| == |VisibleKeys(pool, worker, order)|
  {
    if |order| > 0 {
      var init := order[..|order| - 1];
      var last := order[|order| - 1];
      assert NoDuplicates(init);
      CountIsVisiblePaddocks(pool, worker, init);
      VisibleKeysOfSnoc(pool, worker, order);
    }
  }

  /** The pool paddocks shown to the hut. */
  function VisiblePaddocks(pool: Pool, worker: Option<string>): set<Pos> {
    set x | x in pool && Visible(pool[x], worker)
  }

  /** The order lists every pool paddock exactly once. */
  predicate Enumerates(order: seq<Pos>, pool: Pool) {
    && NoDuplicates(order)
    && (forall x :: x in order ==> x in pool)
    && (forall x :: x in pool ==> x in order)
  }

  /**
   * When the order enumerates the pool, as the pool's own iteration does,
   * the count is the number of pool paddocks shown to the hut.
   */
  lemma CountIsAllVisiblePaddocks(pool: Pool, worker: Option<string>, order: seq<Pos>)
    requires Enumerates(order, pool)
    ensures |Entries(pool, worker, order)| == |VisiblePaddocks(pool, worker)|
  {
    CountIsVisiblePaddocks(pool, worker, order);
    assert VisibleKeys(pool, worker, order) == VisiblePaddocks(pool, worker);
  }

  /** Extending the order by one new position adds it to the shown set exactly when it is shown. */
  lemma VisibleKeysOfSnoc(pool: Pool, worker: Option<string>, order: seq<Pos>)
    requires forall x :: x in order ==> x in pool
    requires |order| > 0 && NoDuplicates(order)
    ensures
      var init := order[..|order| - 1];
      var last := order[|order| - 1];
      && last !in VisibleKeys(pool, worker, init)
      && VisibleKeys(pool, worker, order) ==
           VisibleKeys(pool, worker, init) + (if Visible(pool[last], worker) then {last} else {})
  {
    var init := order[..|order| - 1];
    var last := order[|order| - 1];
    assert order == init + [last];
    assert last !in init;
  }

  /** The number of taken entries. */
  function CountTaken(vs: seq<PaddockView>): (r: nat)
    ensures r <= |vs|
  {
    if |vs| == 0 then 0 else (if vs[0].taken then 1 else 0) + CountTaken(vs[1..])
  }

  /** Reads `n` paddock entries (none when `n` is not positive) and what follows them. */
  function ReadEntries(buf: seq<Field>, n: int): (r: Option<(seq<PaddockView>, seq<Field>)>)
    ensures r.Some? ==> |r.value.0| == (if n <= 0 then 0 else n)
    decreases if n <= 0 then 0 else n
  {
    if n <= 0 then Some(([], buf))
    else if |buf| == 0 || !buf[0].PaddockF? then None
    else
      match ReadEntries(buf[1..], n - 1)
      case None => None
      case Some((vs, rest)) => Some(([buf[0].v] + vs, rest))
  }

  /**
   * The view's reading of the hut's buffer as written: the entry list is
   * rebuilt, but the taken counter is added to the count left over from the
   * previous reading.
   */
  function DeserializeAsWritten(v: View, buf: seq<Field>): (r: Option<View>)
    ensures r.Some? ==> r.value.amountOfFields == v.amountOfFields + CountTaken(r.value.fields)
  {
    if |buf| < 2 || !buf[0].BoolF? || !buf[1].IntF? then None
    else
      match ReadEntries(buf[2..], buf[1].i)
      case None => None
      case Some((vs, rest)) =>
        if |rest| == 0 || !rest[0].StrF? then None
        else Some(View(buf[0].b, vs, rest[0].s, v.amountOfFields + CountTaken(vs)))
  }

  /**
   * The view's reading of the hut's buffer with the taken counter started
   * afresh, as the reset of the entry list evidently intends.
   */
  function Deserialize(v: View, buf: seq<Field>): (r: Option<View>)
    ensures r.Some? ==> r.value.amountOfFields == CountTaken(r.value.fields)
    ensures forall v' :: DeserializeAsWritten(v', buf).Some? <==> r.Some?
    ensures forall v' :: r.Some? ==> DeserializeAsWritten(v', buf).value.(amountOfFields := 0) == r.value.(amountOfFields := 0)
  {
    match DeserializeAsWritten(v, buf)
    case None => None
    case Some(w) => Some(w.(amountOfFields := CountTaken(w.fields)))
  }

  /** The reading does not depend on the view it is read into. */
  lemma DeserializeIgnoresView(v: View, v': View, buf: seq<Field>)
    ensures Deserialize(v', buf) == Deserialize(v, buf)
  {
  }

  /** Reading the same buffer again into the view it produced changes nothing. */
  lemma DeserializeIdempotent(v: View, buf: seq<Field>)
    ensures Deserialize(v, buf).Some? ==> Deserialize(Deserialize(v, buf).value, buf) == Deserialize(v, buf)
  {
    if Deserialize(v, buf).Some? {
      DeserializeIgnoresView(v, Deserialize(v, buf).value, buf);
    }
  }

  lemma {:induction false} ReadEncodedEntries(es: seq<PaddockView>, rest: seq<Field>)
    ensures ReadEntries(EncodeEntries(es) + rest, |es|) == Some((es, rest))
  {
    if |es| > 0 {
      var buf := EncodeEntries(es) + rest;
      assert buf[0] == PaddockF(es[0]);
      assert buf[1..] == EncodeEntries(es[1..]) + rest;
      ReadEncodedEntries(es[1..], rest);
      assert ReadEntries(buf[1..], |es| - 1) == Some((es[1..], rest));
      assert [es[0]] + es[1..] == es;
    } else {
      assert EncodeEntries(es) + rest == rest;
    }
  }

  /**
   * Reading what the hut wrote gives back its mode, the entries shown to it
   * and its worker's name, with the counter equal to the taken entries.
   */
  lemma ViewRoundTrip(b: Shepherd, order: seq<Pos>, v: View)
    requires forall x :: x in order ==> x in b.pool
    ensures
      var es := Entries(b.pool, b.worker, order);
      Deserialize(v, ViewBytes(b, order)) == Some(View(b.assignManually, es, WorkerName(b), CountTaken(es)))
  {
    var es := Entries(b.pool, b.worker, order);
    var buf := ViewBytes(b, order);
    assert buf[2..] == EncodeEntries(es) + [StrF(WorkerName(b))];
    ReadEncodedEntries(es, [StrF(WorkerName(b))]);
  }

  /**
   * Reading the same buffer twice into one view, as written, counts every
   * taken paddock twice.
   */
  lemma DeserializeTwiceDoubleCounts()
    ensures
      var p := PaddockView(Pos(0, 0, 0), true, "Alex");
      var buf := [BoolF(false), IntF(1), PaddockF(p), StrF("Alex")];
      var blank := View(false, [], "", 0);
      var once := DeserializeAsWritten(blank, buf);
      && once.Some? && once.value.amountOfFields == 1
      && DeserializeAsWritten(once.value, buf).Some?
      && DeserializeAsWritten(once.value, buf).value.amountOfFields == 2
      && CountTaken(DeserializeAsWritten(once.value, buf).value.fields) == 1
  {
    var p := PaddockView(Pos(0, 0, 0), true, "Alex");
    var buf := [BoolF(false), IntF(1), PaddockF(p), StrF("Alex")];
    assert buf[2..] == [PaddockF(p), StrF("Alex")];
    ReadEncodedEntries([p], [StrF("Alex")]);
    assert EncodeEntries([p]) + [StrF("Alex")] == buf[2..];
    assert CountTaken([p]) == 1;
  }

  /** Replacing one entry changes the taken count by the difference in its flag. */
  lemma {:induction false} CountTakenUpdate(vs: seq<PaddockView>, row: nat, w: PaddockView)
    requires row < |vs|
    ensures CountTaken(vs[row := w]) ==
            CountTaken(vs) - (if vs[row].taken then 1 else 0) + (if w.taken then 1 else 0)
  {
    if row > 0 {
      assert vs[row := w][1..] == vs[1..][row - 1 := w];
      CountTakenUpdate(vs[1..], row - 1, w);
    } else {
      assert vs[row := w][1..] == vs[1..];
    }
  }

  /**
   * The player toggles the paddock on row `row`: it is marked taken by the
   * view's worker (or untaken with no owner) and the counter moves by one.
   * A row outside the list is the list's index error.
   */
  function ChangeFields(v: View, row: int, add: bool): (r: Option<View>)
    ensures r.None? <==> !(0 <= row < |v.fields|)
    ensures r.Some? ==>
      && |r.value.fields| == |v.fields|
      && r.value.fields[row] == v.fields[row].(taken := add, owner := if add then v.workerName else "")
      && (forall i :: 0 <= i < |v.fields| && i != row ==> r.value.fields[i] == v.fields[i])
      && r.value.amountOfFields == v.amountOfFields + (if add then 1 else -1)
      && r.value.assignManually == v.assignManually && r.value.workerName == v.workerName
  {
    if !(0 <= row < |v.fields|) then None
    else
      var entry := v.fields[row].(taken := add, owner := if add then v.workerName else "");
      Some(v.(fields := v.fields[row := entry], amountOfFields := v.amountOfFields + (if add then 1 else -1)))
  }

  /**
   * The counter keeps matching the taken entries as long as each toggle
   * actually flips its row.
   */
  lemma ChangeFieldsKeepsCount(v: View, row: int, add: bool)
    requires v.amountOfFields == CountTaken(v.fields)
    requires 0 <= row < |v.fields| && v.fields[row].taken != add
    ensures ChangeFields(v, row, add).Some?
    ensures ChangeFields(v, row, add).value.amountOfFields == CountTaken(ChangeFields(v, row, add).value.fields)
  {
    CountTakenUpdate(v.fields, row, v.fields[row].(taken := add, owner := if add then v.workerName else ""));
  }
}

=== FILE: wire.dfy ===
/**
 * Buffers as the ordered sequence of typed values written into them. The byte
 * encoding of each value belongs to the networking library and is not part of
 * this model; only the order and the kind of the values are.
 */
module Wire {
  import opened Paddocks

  /** A Java `int`. */
  newtype int32 = x: int | -0x8000_0000 <= x < 0x8000_0000

  /** One value written to, or read from, a buffer. */
  datatype Field =
    | IntF(i: int)
    | BoolF(b: bool)
    | PosF(p: Pos)
    | StrF(s: string)
    | PaddockF(v: PaddockView)
}

=== FILE: wrappers.dfy ===
/** Small failure-carrying datatypes shared by the whole model. */
module Wrappers {

  /** A value that may be absent; stands in for a Java reference that may be null. */
  datatype Option<+T> = None | Some(value: T) {

    /** The carried value, or `default` when absent. */
    function GetOr(default: T): T {
      match this
      case Some(v) => v
      case None => default
    }
  }

  /** Either a value or the error that prevented computing it. */
  datatype Result<+R, +E> = Success(value: R) | Failure(error: E)
}
